=== FILE: README.md ===
# Request pipeline of the Android Move SDK, in Dafny

This project models the request pipeline of the Android Move SDK and proves
properties of the model.

A client subclasses `ServiceOperation` for one endpoint and calls `execute`.
The operation then does four things:
- it builds the URL from `Core`'s base URL and its endpoint;
- it asks the subclass for a `DataRequest`;
- it hands that request to the `DataTransceiver`;
- it reports to its `OperationListener` when the transport answers.

The transport wraps the request in a `JsonRequest` (a `VolleyRequest`). That
request parses the answer, or classifies a transport error into an `Error`
code, and stores the outcome on the `DataTransaction` before it calls back.
All argument checking goes through `DesignByContract`, and `Logger` filters
log output by level.

The model is a set of pure functions over immutable values:
- A Java `null` is `None` (module `Wrappers`).
- A thrown `DesignByContract` exception is a `Violated(Violation(kind, message))`
  result (module `DesignByContract`). The `kind` says require or ensure, and the
  message is built as the source builds it.
- The state that is mutable in the source is one `ServiceOperation.System`
  value. It holds:
  - the `Core` configuration;
  - the dispatcher's requests and transport queue;
  - the operations;
  - the notifications that reached listeners.
  Each call (`InitCore`, `NewOperation`, `Execute`, `Cancel`) is a function from
  one system to the next, and so is each transport callback (`TransportResponds`,
  `TransportFails`).
- Objects that several parts share (a `DataRequest`, its transaction, its
  transport request) are referred to by their index in the dispatcher.
- The transport may call back at most once per queued request, or never. The
  callback events require that the queued request has not finished. Nothing
  assumes that a callback arrives.

The module `Scenarios` states and proves the pipeline's behaviour on concrete
inputs. It covers:
- a GET of `/questions` that succeeds once, as in the SDK's instrumentation test;
- a network error;
- a cancel before the answer arrives;
- a POST built without a body;
- an `execute` before `Core.init`.

Some behaviour of the code is followed even where one might expect otherwise:
- A method without a body still accepts a body. The constructor calls
  `requireAny` on it, so passing one is no violation.
- `ensureNonNull`, `ensureNonEmptyString`, `ensureNonEmptyCollection` and
  `ensureNonEmptyMap` raise the require kind. Only `ensure` raises the ensure
  kind. So the dispatcher's check for a missing failure message, and the
  decoder's non-null check, are require-kind violations.
- `requireNonEmptyString` builds a detailed message and then throws with an
  empty detail. `requireShouldOverRide` drops its argument. The model keeps
  both messages as written.
- The error listener tests only a transport error's cause for a network
  error, never the error itself. The pipeline keeps that classification; the
  corrected one is stated beside it (see Findings).
- `execute` stores the subclass's request before it queues it. A request that
  is already cancelled is therefore stored but never queued. The operation
  then stays Executing for good (`ServiceOperation.CancelledRequestIsNeverQueued`).

## Model

| member | source | states |
|---|---|---|
| DesignByContract.OptionalMessage | core/src/main/java/com/android/sdk/core/utils/DesignByContract.java:125-133 | the result is non-empty exactly when the first argument is present and non-empty; it is then that argument, and otherwise `""` |
| DesignByContract.Require | core/src/main/java/com/android/sdk/core/utils/DesignByContract.java:79-85 | violated exactly when the condition is false, with the require kind and the REQUIRE prefix before the message |
| DesignByContract.Ensure | core/src/main/java/com/android/sdk/core/utils/DesignByContract.java:117-123 | violated exactly when the condition is false, with the ensure kind, the ENSURE prefix and the " failed." suffix |
| DesignByContract.RequireNonNull | core/src/main/java/com/android/sdk/core/utils/DesignByContract.java:53-56 | violated exactly on null, with the message "non null object(<name>)" |
| DesignByContract.RequireNonEmptyString | core/src/main/java/com/android/sdk/core/utils/DesignByContract.java:58-62 | violated exactly on null or length 0; the message for length 0 has an empty detail |
| DesignByContract.RequireNonEmptyCollection | core/src/main/java/com/android/sdk/core/utils/DesignByContract.java:41-45 | violated exactly on null or size 0, with the require kind |
| DesignByContract.RequireNonEmptyMap | core/src/main/java/com/android/sdk/core/utils/DesignByContract.java:47-51 | violated exactly on null or size 0, with the require kind |
| DesignByContract.RequireAny | core/src/main/java/com/android/sdk/core/utils/DesignByContract.java:65-67 | never violated |
| DesignByContract.RequireShouldOverRide | core/src/main/java/com/android/sdk/core/utils/DesignByContract.java:69-72 | always violated, with the require kind and a message that ignores the argument |
| DesignByContract.RequireShouldNeverReachHere | core/src/main/java/com/android/sdk/core/utils/DesignByContract.java:74-77 | always violated, with the require kind |
| DesignByContract.EnsureNonEmptyCollection | core/src/main/java/com/android/sdk/core/utils/DesignByContract.java:89-93 | violated exactly on null or size 0, with the require kind |
| DesignByContract.EnsureNonEmptyMap | core/src/main/java/com/android/sdk/core/utils/DesignByContract.java:95-99 | violated exactly on null or size 0, with the require kind |
| DesignByContract.EnsureNonNull | core/src/main/java/com/android/sdk/core/utils/DesignByContract.java:101-104 | violated exactly on null, with the require kind and not the ensure kind |
| DesignByContract.EnsureNonEmptyString | core/src/main/java/com/android/sdk/core/utils/DesignByContract.java:106-110 | violated exactly on null or length 0, with the require kind; a null is reported without the parameter name |
| DesignByContract.EnsureAny | core/src/main/java/com/android/sdk/core/utils/DesignByContract.java:113-115 | never violated |
| DesignByContract.KindIsVisibleInMessage | core/src/main/java/com/android/sdk/core/utils/DesignByContract.java:79-123 | a failed `require` and a failed `ensure` on the same message give different messages |
| Logger.Ordinal | core/src/main/java/com/android/sdk/core/utils/Logger.java:43-49 | the ordinal is the level's position in VERBOSE, DEBUG, INFO, WARN, ERROR, OFF |
| Logger.OverrideLogLevel | core/src/main/java/com/android/sdk/core/utils/Logger.java:66-69 | rejects null, and otherwise makes the given level the current one |
| Logger.ShouldLog | core/src/main/java/com/android/sdk/core/utils/Logger.java:230-232 | throws exactly when no level was ever set; otherwise a level passes exactly when its ordinal is at least the current one's |
| Logger.GateLevel | core/src/main/java/com/android/sdk/core/utils/Logger.java:78-228 | no entry point is gated at OFF, so OFF silences every one of them |
| Logger.Sink | core/src/main/java/com/android/sdk/core/utils/Logger.java:78-228 | every entry point writes through the sink of its own gate level, except `e(tag, msg, tr)` |
| Logger.Returned | core/src/main/java/com/android/sdk/core/utils/Logger.java:78-83 | a skipped call returns -1, and a written one what the sink returned |
| Logger.Log | core/src/main/java/com/android/sdk/core/utils/Logger.java:78-228 | an entry point throws exactly when no level is set, is skipped exactly when its gate level is below the current one, and otherwise writes to its sink and returns what the sink returned |
| Logger.SkippedReturnsMinusOne | core/src/main/java/com/android/sdk/core/utils/Logger.java:107-112 | a call below the current level writes nothing and returns -1 |
| Logger.FilterIsMonotone | core/src/main/java/com/android/sdk/core/utils/Logger.java:230-232 | if a level passes, every higher level passes too |
| Logger.OffAndVerboseAreTheExtremes | core/src/main/java/com/android/sdk/core/utils/Logger.java:43-49 | with OFF set nothing below OFF passes, and with VERBOSE set everything passes |
| Logger.UnsetLevelThrows | core/src/main/java/com/android/sdk/core/utils/Logger.java:60-64 | before `overrideLogLevel` every entry point throws |
| Logger.ErrorWithThrowableIsWrittenAsWarning | core/src/main/java/com/android/sdk/core/utils/Logger.java:223-228 | `e(tag, msg, tr)` is gated at ERROR but written to the WARN sink |
| Logger.ShouldLogDefaulted | core/src/main/java/com/android/sdk/core/utils/Logger.java:35 | with the documented DEBUG default in place of null, a level passes exactly when its ordinal is at least the effective level's |
| Logger.LogAsIntended | core/src/main/java/com/android/sdk/core/utils/Logger.java:78-228 | the corrected entry points never throw, write to the gated level's sink, and skip exactly below the effective level |
| Logger.ErrorWithThrowableIsWrittenAsError | core/src/main/java/com/android/sdk/core/utils/Logger.java:223-228 | corrected, `e(tag, msg, tr)` at level ERROR is written to the ERROR sink, unlike the source |
| Logger.IntendedAgreesOnceLevelIsSet | core/src/main/java/com/android/sdk/core/utils/Logger.java:78-232 | once a level is set, the corrected and as-written logger agree on every call except `e(tag, msg, tr)` |
| Core.Init | move-sdk/src/main/java/com/android/sdk/core/Core.java:44-48 | fails exactly on a null context, accepts any base URL (null and empty included), and stores context and URL |
| Core.GetInstance | move-sdk/src/main/java/com/android/sdk/core/Core.java:55-58 | violated exactly before the first `init`, with the "Core not initialized" message |
| Core.GetBaseUrl | move-sdk/src/main/java/com/android/sdk/core/Core.java:64-66 | the stored base URL, and a violation before `init` |
| Core.BaseUrlIsTheLastInitialised | move-sdk/src/main/java/com/android/sdk/core/Core.java:44-66 | after `init` the base URL read back is the one passed, whatever state came before |
| Core.InitReplacesPreviousInstance | move-sdk/src/main/java/com/android/sdk/core/Core.java:47-53 | `init` gives the same state whatever the previous instance was |
| Errors.Name | core/src/main/java/com/android/sdk/core/models/Error.java:58-63 | a code's name is non-empty |
| Errors.MessageResource | core/src/main/java/com/android/sdk/core/models/Error.java:47-56 | a code carries the network-unavailable text exactly when it is NETWORK_ERROR |
| Errors.NamesAreDistinct | core/src/main/java/com/android/sdk/core/models/Error.java:47-63 | two codes have the same name exactly when they are the same code |
| Errors.SharedMessageResource | core/src/main/java/com/android/sdk/core/models/Error.java:47-50 | two codes share a message resource exactly when they are equal or neither is NETWORK_ERROR |
| Errors.New | core/src/main/java/com/android/sdk/core/models/Error.java:94-102 | fails exactly on a null or empty code or message; a result is valid and holds exactly the arguments |
| Errors.CreateErrorMessage | core/src/main/java/com/android/sdk/core/models/Error.java:74-79 | fails exactly on a null or empty code or message, and the getters return the arguments |
| Errors.CreateErrorMessageWithCode | core/src/main/java/com/android/sdk/core/models/Error.java:88-92 | fails exactly on a null code, an uninitialised `Core` or an empty resource text; the code is the enum name and the message is the code's resource text |
| Errors.GetMessage | core/src/main/java/com/android/sdk/core/models/Error.java:104-107 | a constructed error's message is never empty |
| Errors.GetCode | core/src/main/java/com/android/sdk/core/models/Error.java:109-112 | a constructed error's code is never empty |
| Errors.GetException | core/src/main/java/com/android/sdk/core/models/Error.java:114-118 | a null exception renders as empty text in `toString` |
| Errors.GettersReadBackArguments | core/src/main/java/com/android/sdk/core/models/Error.java:94-118 | the getters of a constructed error return the code, message and exception it was built with |
| Errors.ExceptionText | core/src/main/java/com/android/sdk/core/models/Error.java:130-136 | `""` without an exception, its message with one, and "null" when that message is null |
| Errors.ToString | core/src/main/java/com/android/sdk/core/models/Error.java:124-128 | the length is the sum of the three labels and three parts; it starts with "code: " and the code, and ends with the exception text |
| Errors.ToStringStartsWithCode | core/src/main/java/com/android/sdk/core/models/Error.java:124-128 | in the rendered text the message label follows the code, the message follows that label, and the exception label follows the message |
| DataRequestMethod.ValueRoundTrip | move-sdk/src/main/java/com/android/sdk/core/models/DataRequestMethod.java:36-48 | the wire code of each of the two methods reads back as that method |
| DataRequestMethod.New | move-sdk/src/main/java/com/android/sdk/core/models/DataRequestMethod.java:53-60 | fails exactly on a null method; `getMethod` then returns that method's wire code |
| DataRequestMethod.GetMethod | move-sdk/src/main/java/com/android/sdk/core/models/DataRequestMethod.java:58-60 | the code read back identifies the stored constant |
| DataRequestMethod.HasBody | move-sdk/src/main/java/com/android/sdk/core/models/DataRequestMethod.java:67-69 | false unless a subclass overrides it to true |
| DataRequestMethod.Simple | move-sdk/src/main/java/com/android/sdk/core/models/DataRequestMethod.java:58-69 | a method that keeps the base `hasBody` has no body, and its code is its method's |
| DataRequestMethod.JsonWithBody | move-sdk/src/main/java/com/android/sdk/core/models/DataRequestMethod.java:58-69 | a method that overrides `hasBody` to true has a body, and its code is its method's |
| DataRequest.New | core/src/main/java/com/android/sdk/core/models/DataRequest.java:75-91 | fails exactly on a null method, a null or empty path, or a body method without a body; otherwise it stores exactly the arguments, not cancelled and not queued |
| DataRequest.CreateSimpleDataRequest | core/src/main/java/com/android/sdk/core/models/DataRequest.java:52-61 | fails exactly on a null method, a null or empty path, or a method with a body; accepts null maps; the getters return the arguments and there is no body |
| DataRequest.CreateJsonDataRequest | core/src/main/java/com/android/sdk/core/models/DataRequest.java:63-73 | fails exactly on a null method, a null or empty path, or a null body; the getters return the arguments and the body |
| DataRequest.MarkCancelled | core/src/main/java/com/android/sdk/core/models/DataRequest.java:94-104 | after `cancel`, `isCancelled` is true and no other field changed |
| DataRequest.GetMethod | core/src/main/java/com/android/sdk/core/models/DataRequest.java:114-116 | the code read back identifies the stored method constant |
| DataRequest.HasBody | core/src/main/java/com/android/sdk/core/models/DataRequest.java:133-135 | true exactly when the method overrides `hasBody` to true, whatever body is stored |
| DataRequest.GettersReadBackArguments | core/src/main/java/com/android/sdk/core/models/DataRequest.java:102-135 | a constructed request is not cancelled (`IsCancelled`), and its getters (`GetPath`, `GetHeaders`, `GetParams`, `GetMethod`, `HasBody`, `GetBody`) return the path, both maps, the method's code and body flag as given, and a body exactly when one was given |
| DataRequest.GetBody | core/src/main/java/com/android/sdk/core/models/DataRequest.java:122-131 | null exactly when there is no body, and otherwise the serialised body |
| DataRequest.BodyWithoutBodyMethodIsAccepted | core/src/main/java/com/android/sdk/core/models/DataRequest.java:80-84 | a method without a body accepts a body, and the body is kept |
| DataRequest.BodyMethodNeedsBody | core/src/main/java/com/android/sdk/core/models/DataRequest.java:80-84 | a method with a body cannot be built without one, through either factory |
| DataRequest.MarkCancelledIsIdempotent | core/src/main/java/com/android/sdk/core/models/DataRequest.java:94-100 | cancelling twice is cancelling once |
| VolleyRequest.New | core/src/main/java/com/android/sdk/core/models/VolleyRequest.java:49-50 | the transport request takes its method code and URL from the transaction's request |
| VolleyRequest.Classify | core/src/main/java/com/android/sdk/core/models/VolleyRequest.java:55-61 | NETWORK_ERROR exactly when the cause is a network error; otherwise SERVICE_RESPONSE_ERROR exactly when the error is a parse error; UNKNOWN in every other case |
| VolleyRequest.NetworkCauseWins | core/src/main/java/com/android/sdk/core/models/VolleyRequest.java:55-58 | a parse error with a network cause is a NETWORK_ERROR |
| VolleyRequest.OnlyTheCauseIsConsulted | core/src/main/java/com/android/sdk/core/models/VolleyRequest.java:55-61 | a network error whose cause is not a network error (null included) is UNKNOWN |
| VolleyRequest.ClassifyAsIntended | core/src/main/java/com/android/sdk/core/models/VolleyRequest.java:55-61 | corrected: NETWORK_ERROR exactly when the error or its cause is a network error; SERVICE_RESPONSE_ERROR exactly for other parse errors; UNKNOWN otherwise |
| VolleyRequest.IntendedDiffersOnlyOnNetworkErrors | core/src/main/java/com/android/sdk/core/models/VolleyRequest.java:55-61 | the source and the corrected classification differ exactly on a network error without a network-error cause, which the source calls UNKNOWN |
| VolleyRequest.FailureFor | core/src/main/java/com/android/sdk/core/models/VolleyRequest.java:54-61 | the classified failure is valid, has the classification's name as its code, and keeps the transport error as its exception |
| VolleyRequest.OnErrorResponse | core/src/main/java/com/android/sdk/core/models/VolleyRequest.java:52-65 | the failure is stored on the transaction's response before the single `onFailure` call, which carries that transaction |
| VolleyRequest.GetBody | core/src/main/java/com/android/sdk/core/models/VolleyRequest.java:72-78 | the request's body exactly when its method has one, and the transport default otherwise |
| VolleyRequest.GetParams | core/src/main/java/com/android/sdk/core/models/VolleyRequest.java:80-83 | the transport is given the request's own parameter map, null included |
| VolleyRequest.GetHeaders | core/src/main/java/com/android/sdk/core/models/VolleyRequest.java:85-88 | the transport is given the request's own header map, null included |
| VolleyRequest.BodyMethodSendsItsBody | core/src/main/java/com/android/sdk/core/models/VolleyRequest.java:73-76 | a constructed request whose method has a body hands the transport a non-null body |
| JsonRequest.ParseNetworkResponse | core/src/main/java/com/android/sdk/core/models/JsonRequest.java:50-61 | parseable text gives a success with that object; other text gives a parse error whose cause is the parser's exception |
| JsonRequest.UnparseableIsServiceResponseError | core/src/main/java/com/android/sdk/core/models/JsonRequest.java:57-59 | unparseable text is classified SERVICE_RESPONSE_ERROR |
| JsonRequest.DeliverResponse | core/src/main/java/com/android/sdk/core/models/JsonRequest.java:63-67 | the object is stored on the response before `onSuccess`, which carries that transaction |
| JsonRequest.GetHeaders | core/src/main/java/com/android/sdk/core/models/JsonRequest.java:69-76 | sets Content-Type to the JSON type and User-agent to the platform agent, keeps every other key, and fails on a null map |
| JsonRequest.GetHeadersIsIdempotent | core/src/main/java/com/android/sdk/core/models/JsonRequest.java:72-75 | adding the headers twice gives the same map as once |
| DataTransceiver.GetsInstance | core/src/main/java/com/android/sdk/core/models/DataTransceiver.java:43-52 | the dispatcher is usable exactly when `Core` is initialised |
| DataTransceiver.QueueJsonRequest | core/src/main/java/com/android/sdk/core/models/DataTransceiver.java:61-90 | null request or listener is a violation; a cancelled request leaves everything unchanged; a live one appends exactly one transport request, around a transaction for that request, and records its handle |
| DataTransceiver.CancelRequest | core/src/main/java/com/android/sdk/core/models/DataRequest.java:94-100 | sets the request's flag, cancels its transport request only when one is attached, and changes nothing else |
| DataTransceiver.CancelRequestIsIdempotent | core/src/main/java/com/android/sdk/core/models/DataRequest.java:94-100 | cancelling a request twice is cancelling it once |
| DataTransceiver.Forward | core/src/main/java/com/android/sdk/core/models/DataTransceiver.java:68-80 | success is passed on unchanged; failure is passed on exactly when it carries a failure message, and is a violation otherwise |
| DataTransceiver.Respond | core/src/main/java/com/android/sdk/core/models/JsonRequest.java:50-67 | fails exactly when the text does not parse and its failure cannot be built; the transport request becomes finished with a settled response; the call is a success carrying the parsed object exactly when the text parses, and otherwise carries the classified SERVICE_RESPONSE_ERROR |
| DataTransceiver.Fail | core/src/main/java/com/android/sdk/core/models/VolleyRequest.java:52-65 | fails exactly when the failure cannot be built; otherwise the transport request is finished and the failure call carries the classified failure |
| DataTransceiver.ReportError | core/src/main/java/com/android/sdk/core/models/VolleyRequest.java:52-65 | fails exactly when the failure cannot be built; otherwise the transport request is finished and the failure, whose code is the classification's name, is passed on through the dispatcher's listener |
| DataTransceiver.TransportHeaders | core/src/main/java/com/android/sdk/core/models/JsonRequest.java:69-76 | the JSON headers are put into the request's own header map, which keeps them |
| ServiceOperation.GetResultFromJson | move-sdk/src/main/java/com/android/sdk/core/operations/ServiceOperation.java:173-183 | succeeds exactly when the decoder gives an object of an assignable type, and returns that object; null is a require violation, a wrong type an ensure violation |
| ServiceOperation.GetBaseUrl | move-sdk/src/main/java/com/android/sdk/core/operations/ServiceOperation.java:240-246 | an override is used as is; otherwise `Core`'s URL, and a violation when `Core` is uninitialised or its URL is null or empty |
| ServiceOperation.IsVoidResult | move-sdk/src/main/java/com/android/sdk/core/operations/ServiceOperation.java:221-224 | true exactly for an operation declared with result type `Void` |
| ServiceOperation.GenerateUrl | move-sdk/src/main/java/com/android/sdk/core/operations/ServiceOperation.java:227-233 | succeeds exactly when the base URL in effect and the endpoint are both non-empty, and is then their concatenation |
| ServiceOperation.InitCore | move-sdk/src/main/java/com/android/sdk/core/Core.java:44-48 | `init` on the system fails exactly on a null context, changes only the configuration, and keeps the invariant |
| ServiceOperation.NewOperation | move-sdk/src/main/java/com/android/sdk/core/operations/ServiceOperation.java:91-94 | a null result type is a require violation; otherwise one Idle, uncancelled operation is added and the invariant kept |
| ServiceOperation.BuiltRequest | move-sdk/src/main/java/com/android/sdk/core/operations/ServiceOperation.java:108-115 | a request exactly when the base URL in effect and the endpoint are both non-empty and the subclass, asked for their concatenation with two empty maps, returns one; that request, with no transport handle yet |
| ServiceOperation.Execute | move-sdk/src/main/java/com/android/sdk/core/operations/ServiceOperation.java:97-117 | while executing, nothing changes; from Idle it succeeds exactly when a request is built and `Core` is initialised, resets `cancelled`, stores the built request, queues exactly that request unless it is cancelled, changes no other operation, notifies no one, and keeps the invariant |
| ServiceOperation.AtMostOnePending | move-sdk/src/main/java/com/android/sdk/core/operations/ServiceOperation.java:101-117 | an operation has at most one outstanding transport request |
| ServiceOperation.CancelledRequestIsNeverQueued | move-sdk/src/main/java/com/android/sdk/core/operations/ServiceOperation.java:101-117 | a request built already cancelled is never queued; the operation stays Executing with nothing outstanding, and every later `execute` does nothing |
| ServiceOperation.Cancel | move-sdk/src/main/java/com/android/sdk/core/operations/ServiceOperation.java:193-209 | returns true exactly when not cancelled and executing, then sets `cancelled` and cancels exactly the in-flight request; otherwise nothing changes; the invariant is kept |
| ServiceOperation.SecondCancelFails | move-sdk/src/main/java/com/android/sdk/core/operations/ServiceOperation.java:195-208 | a second consecutive `cancel` returns false |
| ServiceOperation.ClearInFlight | move-sdk/src/main/java/com/android/sdk/core/operations/ServiceOperation.java:118-146 | both callbacks first make their operation Idle, keeping its result type and cancel flag and changing nothing else |
| ServiceOperation.OnSuccess | move-sdk/src/main/java/com/android/sdk/core/operations/ServiceOperation.java:118-138 | the operation becomes Idle first; if cancelled nobody is told; a Void operation reports null without decoding; otherwise it needs the JSON and reports the decoded object |
| ServiceOperation.OnFailure | move-sdk/src/main/java/com/android/sdk/core/operations/ServiceOperation.java:140-151 | the operation becomes Idle first; if cancelled nobody is told, and otherwise the transaction's failure message is passed on unchanged |
| ServiceOperation.Route | move-sdk/src/main/java/com/android/sdk/core/operations/ServiceOperation.java:117-152 | only a success that must be decoded can fail, exactly when the JSON is missing or does not decode; the operation called back becomes Idle; at most one notification is added; another client's listener gets the call |
| ServiceOperation.TransportResponds | move-sdk/src/main/java/com/android/sdk/core/operations/ServiceOperation.java:118-138 | fails exactly when an unparseable answer's failure cannot be built or a parsed answer cannot be decoded for a waiting non-Void operation; otherwise the operation becomes Idle and, unless cancelled, its listener hears exactly once: the classified failure, null for Void, or the decoded object; another client's listener gets the call; the invariant is kept; in the dispatcher only the entry for this answer changes: it is finished, stores the parsed object or the classified failure, and keeps its request and listener |
| ServiceOperation.TransportFails | move-sdk/src/main/java/com/android/sdk/core/operations/ServiceOperation.java:140-151 | a transport error leaves its operation Idle and, unless it was cancelled, gives its listener exactly one failure, the classified one; the invariant is kept; in the dispatcher only the entry for this error changes: it is finished and stores the classified failure; another client's listener gets the call |
| ServiceOperation.NoCallbackAfterReport | move-sdk/src/main/java/com/android/sdk/core/operations/ServiceOperation.java:118-151 | after a report nothing is outstanding for the operation, so its listener cannot be called twice for one `execute` |
| Scenarios.SubmittedQueuesOneRequest | core/src/androidTest/java/com/android/sdk/core/operations/ServiceOperationTests.java:25-36 | after `init`, construction and `execute`, exactly one GET of base URL + "/questions" is outstanding and nobody has been told anything |
| Scenarios.QuestionsSucceedOnce | core/src/androidTest/java/com/android/sdk/core/operations/ServiceOperationTests.java:31-55 | a successful answer reaches the caller exactly once, with the decoded non-null result |
| Scenarios.NetworkErrorIsReported | core/src/main/java/com/android/sdk/core/models/VolleyRequest.java:55-64 | an error with a network cause reaches the caller as NETWORK_ERROR with the network-unavailable text and the error itself |
| Scenarios.CancelledOperationStaysSilent | move-sdk/src/main/java/com/android/sdk/core/operations/ServiceOperation.java:193-199 | `cancel` after `execute` returns true and cancels the transport request; an answer that still arrives reaches nobody and leaves the operation Idle |
| Scenarios.PostWithoutBodyIsRejected | core/src/main/java/com/android/sdk/core/models/DataRequest.java:63-73 | a JSON POST without a body is a require violation |
| Scenarios.ExecuteBeforeInitIsRejected | move-sdk/src/main/java/com/android/sdk/core/operations/ServiceOperation.java:240-246 | `execute` before `Core.init` is a violation |

## Left out

- Volley's `RequestQueue`, its callback threads and the `synchronized` enqueue
  are not modelled. The queue is a sequence, and each callback is one atomic
  event. A `cancel` racing a callback is just one order of these events.
- The transport's own cancellation is not modelled: a cancelled transport
  request may still call back in the model. Volley would normally stay silent.
  In that case the operation stays Executing, which the model also allows,
  because no callback is assumed.
- Gson decoding is a `Decoder` parameter: a JSON object and a class give an
  object with its runtime class, or null.
- org.json parsing is a `Parser` parameter. A JSON object is represented by
  its serialised text.
- The HTTP charset and cache headers, and the byte encoding of a body
  (`getBytes`), are not modelled: the library's behaviour is not visible here.
- The Android `Context` is reduced to the texts of the two string resources.
  The `http.agent` property is a given string.
- Logging is not modelled: the `android.util.Log` sink, the log calls made
  along the pipeline, and the Android priority each `LogLevel` carries (the
  filter never reads it). With the logger as written, each of those log calls
  throws when no level was set (see Findings). The pipeline model assumes
  they return.
- An `OperationListener` is an identifier. A null listener, which would make
  the completion call throw, is not modelled.
- `completeWithResult` and `completeWithMessage` are modelled with their
  default behaviour (pass the value to the listener). A subclass override is
  not modelled.
- `execute` stores the subclass's request as a new object. Handing the same
  `DataRequest` object to two executes, which would overwrite its transport
  handle, is not modelled.
- A contract violation ends the run, so the state it leaves behind is not
  modelled. For example, when the dispatcher cannot start because `Core` was
  never initialised, `execute` has already stored its request, and the source
  operation would stay Executing after the exception.
- The `updateHeaders` and `updateParams` hooks are empty and never called.
- `StorageUtil` (file I/O), `BasePreferences` (a SharedPreferences wrapper) and
  the test-only `Choice` class are not part of this model.
- JsonRequest.ParseNetworkResponse: the message of the `ParseError` (the text of
  the `JSONException` it wraps) and the `JSONException`'s own message are
  modelled as null, so `Errors.ExceptionText` renders them as "null" where the
  source would show the parser's text.
- DataTransceiver.GetsInstance: a missing `Core` is modelled as a require-kind
  violation at each use. In the source the static initialiser fails, so the
  first use throws an initialiser error and every later use a class-not-found
  error, even after `Core.init`. That error class and the permanent failure
  are not modelled: a violation ends the run here.
- DataTransceiver.Forward: a missing failure message is a require-kind
  violation, because the source checks it with `ensureNonNull`, which raises
  the require kind.

## Findings

| source | as written | input that shows it | evidently intended | confidence | as-written member | corrected member |
|---|---|---|---|---|---|---|
| core/src/main/java/com/android/sdk/core/utils/Logger.java:60-64 | `currentLogLevel` is set only by a private constructor that nothing calls, so it stays null until `overrideLogLevel`, and `shouldLog` dereferences it | any log call before `overrideLogLevel`, for example the `Logger.d` at the start of `execute` | a default level applies until it is overridden; the class comment names DEBUG (the unused constructor would set ERROR) | not executed | Logger.UnsetLevelThrows | Logger.LogAsIntended |
| core/src/main/java/com/android/sdk/core/utils/Logger.java:223-228 | `e(tag, msg, tr)` is gated at ERROR but writes through `Log.w` | level ERROR set, then `e(tag, msg, tr)` | an error with a throwable is written through `Log.e`, like `e(tag, msg)` | not executed | Logger.ErrorWithThrowableIsWrittenAsWarning | Logger.ErrorWithThrowableIsWrittenAsError |
| core/src/main/java/com/android/sdk/core/models/VolleyRequest.java:55-61 | only the error's cause is tested for `NetworkError`, never the error itself | the transport's no-connection error, a `NetworkError` whose cause is the socket's `IOException`, is reported as UNKNOWN with the unknown-error text | a network error is reported as NETWORK_ERROR whether it is the error or its cause | medium (depends on how the transport builds its errors), not executed | VolleyRequest.OnlyTheCauseIsConsulted | VolleyRequest.ClassifyAsIntended |

=== FILE: core_config.dfy ===
/** The process-wide configuration (`Core`): an application context and
    the base URL operations are resolved against.

    The Android `Context` is opaque here except for the one thing the core
    reads through it: the text of the two error-message string resources.
 */
module Core {
  import opened Wrappers
  import opened DesignByContract

  /** The string resources the core looks up. */
  datatype StringResource = ErrorMessageUnknown | ErrorMessageNetworkUnavailable

  /** The application's resource table, reduced to those two entries. */
  datatype Resources = Resources(unknownText: string, networkUnavailableText: string)

  /** An application context. */
  datatype Context = Context(resources: Resources)

  /** `Resources.getString` for one of the two ids. */
  function GetString(context: Context, id: StringResource): string {
    match id
    case ErrorMessageUnknown => context.resources.unknownText
    case ErrorMessageNetworkUnavailable => context.resources.networkUnavailableText
  }

  /** The singleton instance: the (static) context and its base URL. */
  datatype Instance = Instance(applicationContext: Context, baseUrl: Option<string>)

  /** `sInstance`: absent until the first `init`. */
  datatype CoreState = Uninitialised | Initialised(instance: Instance)

  /** `init`: a `null` context is a violation; any base URL, `null` and
      empty included, is accepted. The new instance replaces whatever was
      there before. */
  function Init(state: CoreState, applicationContext: Option<Context>, baseUrl: Option<string>): (r: Result<CoreState>)
    ensures r.Violated? <==> applicationContext.None?
    ensures r.Violated? ==> r.violation.kind == RequireKind
    ensures r.Ok? ==> r.value.Initialised?
                      && r.value.instance.applicationContext == applicationContext.value
                      && r.value.instance.baseUrl == baseUrl
  {
    var _ :- RequireNonNull(applicationContext, NoArgs);
    // requireAny(baseUrl): null is accepted
    Ok(Initialised(Instance(applicationContext.value, baseUrl)))
  }

  const NotInitialisedMessage := "Core not initialized, call Core.init(..) before calling this method."

  /** `getInstance`: a require violation before the first `init`. */
  function GetInstance(state: CoreState): (r: Result<Instance>)
    ensures r.Violated? <==> state.Uninitialised?
    ensures r.Violated? ==> r.violation == Violation(RequireKind, RequirePrefix + NotInitialisedMessage)
    ensures r.Ok? ==> r.value == state.instance
  {
    var _ :- Require(state.Initialised?, NotInitialisedMessage);
    Ok(state.instance)
  }

  /** `Core.getInstance().getBaseUrl()`. */
  function GetBaseUrl(state: CoreState): (r: Result<Option<string>>)
    ensures r.Violated? <==> state.Uninitialised?
    ensures r.Ok? ==> r.value == state.instance.baseUrl
  {
    var instance :- GetInstance(state);
    Ok(instance.baseUrl)
  }

  /** After a successful `init` the base URL read back is the one passed,
      whatever state came before. */
  lemma {:induction false} BaseUrlIsTheLastInitialised(state: CoreState, context: Context, baseUrl: Option<string>)
    ensures Init(state, Some(context), baseUrl).Ok?
    ensures GetBaseUrl(Init(state, Some(context), baseUrl).value) == Ok(baseUrl)
  {
    var s := Init(state, Some(context), baseUrl);
    assert s.Ok?;
    assert s.value.instance.baseUrl == baseUrl;
  }

  /** A repeated `init` keeps nothing of the previous instance. */
  lemma {:induction false} InitReplacesPreviousInstance(s1: CoreState, s2: CoreState, context: Option<Context>, baseUrl: Option<string>)
    ensures Init(s1, context, baseUrl) == Init(s2, context, baseUrl)
  {
    if context.Some? {
      assert Init(s1, context, baseUrl).value == Initialised(Instance(context.value, baseUrl));
    }
  }
}

=== FILE: data_request.dfy ===
/** The description of one HTTP call (`DataRequest`).

    A request is a mutable object in the source; here it is a value, and the
    dispatcher keeps the one shared copy of each request (see
    `DataTransceiver.Dispatcher`). Its `volleyRequest` field is the index of
    the transport request it was queued as, if any.
 */
module DataRequest {
  import opened Wrappers
  import opened DesignByContract
  import opened Json
  import DataRequestMethod

  type StringMap = map<string, string>

  datatype DataRequest = DataRequest(
    volleyRequest: Option<nat>,
    cancelled: bool,
    dataRequestMethod: DataRequestMethod.RequestMethod,
    path: string,
    headers: Option<StringMap>,
    params: Option<StringMap>,
    body: Option<JsonObject>)

  /** What every constructed request satisfies: a non-empty path, and a
      body whenever its method declares one. */
  predicate WellFormed(r: DataRequest) {
    |r.path| > 0 && (HasBody(r) ==> r.body.Some?)
  }

  /** A request as it leaves a constructor: not cancelled, not queued. */
  predicate Fresh(r: DataRequest) {
    !r.cancelled && r.volleyRequest.None?
  }

  /** The private constructor. A method with a body needs one; a method
      without a body accepts a body or none. Headers and params may be
      `null`. */
  function New(
    dataRequestMethod: Option<DataRequestMethod.RequestMethod>,
    path: Option<string>,
    headers: Option<StringMap>,
    params: Option<StringMap>,
    body: Option<JsonObject>): (r: Result<DataRequest>)
    ensures r.Violated? <==>
              || dataRequestMethod.None?
              || IsEmptyText(path)
              || (DataRequestMethod.HasBody(dataRequestMethod.value) && body.None?)
    ensures r.Violated? ==> r.violation.kind == RequireKind
    ensures r.Ok? ==> WellFormed(r.value) && Fresh(r.value)
                      && r.value.dataRequestMethod == dataRequestMethod.value
                      && r.value.path == path.value
                      && r.value.headers == headers
                      && r.value.params == params
                      && r.value.body == body
  {
    var _ :- RequireNonNull(dataRequestMethod, Arg("method"));
    var _ :- RequireNonEmptyString(path, Arg("path"));
    // requireAny(headers), requireAny(params): null is accepted
    var _ :- if DataRequestMethod.HasBody(dataRequestMethod.value)
             then RequireNonNull(body, Arg("body"))
             else Ok(());
    Ok(DataRequest(None, false, dataRequestMethod.value, path.value, headers, params, body))
  }

  /** `createSimpleDataRequest`: a request that never stores a body. */
  function CreateSimpleDataRequest(
    dataRequestMethod: Option<DataRequestMethod.RequestMethod>,
    path: Option<string>,
    headers: Option<StringMap>,
    params: Option<StringMap>): (r: Result<DataRequest>)
    ensures r.Violated? <==>
              || dataRequestMethod.None?
              || IsEmptyText(path)
              || DataRequestMethod.HasBody(dataRequestMethod.value)
    ensures r.Violated? ==> r.violation.kind == RequireKind
    ensures r.Ok? ==> WellFormed(r.value) && Fresh(r.value)
                      && GetMethod(r.value) == DataRequestMethod.GetMethod(dataRequestMethod.value)
                      && GetPath(r.value) == path.value
                      && GetHeaders(r.value) == headers
                      && GetParams(r.value) == params
                      && r.value.body.None? && GetBody(r.value).None?
  {
    var _ :- RequireNonNull(dataRequestMethod, NoArgs);
    var _ :- RequireNonEmptyString(path, NoArgs);
    New(dataRequestMethod, path, headers, params, None)
  }

  /** `createJsonDataRequest`: additionally rejects a `null` body. */
  function CreateJsonDataRequest(
    dataRequestMethod: Option<DataRequestMethod.RequestMethod>,
    path: Option<string>,
    headers: Option<StringMap>,
    params: Option<StringMap>,
    body: Option<JsonObject>): (r: Result<DataRequest>)
    ensures r.Violated? <==> dataRequestMethod.None? || IsEmptyText(path) || body.None?
    ensures r.Violated? ==> r.violation.kind == RequireKind
    ensures r.Ok? ==> WellFormed(r.value) && Fresh(r.value)
                      && GetMethod(r.value) == DataRequestMethod.GetMethod(dataRequestMethod.value)
                      && GetPath(r.value) == path.value
                      && GetHeaders(r.value) == headers
                      && GetParams(r.value) == params
                      && GetBody(r.value) == Some(Serialise(body.value))
  {
    var _ :- RequireNonNull(dataRequestMethod, Arg("method"));
    var _ :- RequireNonEmptyString(path, Arg("path"));
    var _ :- RequireNonNull(body, Arg("jsonBody"));
    New(dataRequestMethod, path, headers, params, body)
  }

  /** The `cancelled` flag after `cancel`. The forwarding to the attached
      transport request is `DataTransceiver.CancelRequest`. */
  function MarkCancelled(r: DataRequest): (c: DataRequest)
    ensures IsCancelled(c)
    ensures c.(cancelled := r.cancelled) == r
  {
    r.(cancelled := true)
  }

  /** `isCancelled`; see `GettersReadBackArguments` for the getters. */
  function IsCancelled(r: DataRequest): bool { r.cancelled }

  /** `getHeaders`: the stored map, `null` included. */
  function GetHeaders(r: DataRequest): Option<StringMap> { r.headers }

  /** `getParams`: the stored map, `null` included. */
  function GetParams(r: DataRequest): Option<StringMap> { r.params }

  /** `getPath`: the stored path. */
  function GetPath(r: DataRequest): string { r.path }

  /** `getMethod`: the transport code of the stored method. */
  function GetMethod(r: DataRequest): (code: int)
    ensures DataRequestMethod.MethodOf(code) == Some(r.dataRequestMethod.constant)
  {
    DataRequestMethod.GetMethod(r.dataRequestMethod)
  }

  /** `getBody`: `null` exactly when there is no body, and otherwise the
      serialised body. Its encoding to bytes is left to the platform. */
  function GetBody(r: DataRequest): (b: Option<string>)
    ensures b.None? <==> r.body.None?
    ensures b.Some? ==> b.value == Serialise(r.body.value)
  {
    match r.body
    case None => None
    case Some(json) => Some(Serialise(json))
  }

  /** `hasBody`: decided by the method alone, whatever body is stored. */
  function HasBody(r: DataRequest): (b: bool)
    ensures b <==> r.dataRequestMethod.hasBodyOverride == Some(true)
  {
    DataRequestMethod.HasBody(r.dataRequestMethod)
  }

  /** The getters of a constructed request read back what the constructor
      was given: not cancelled, the path and both maps as passed (`null`
      included), the method's code and body flag, and a body exactly when
      one was passed. */
  lemma {:induction false} GettersReadBackArguments(
    m: DataRequestMethod.RequestMethod, path: string, headers: Option<StringMap>, params: Option<StringMap>,
    body: Option<JsonObject>)
    requires New(Some(m), Some(path), headers, params, body).Ok?
    ensures
      var r := New(Some(m), Some(path), headers, params, body).value;
      && !IsCancelled(r)
      && GetPath(r) == path
      && GetHeaders(r) == headers
      && GetParams(r) == params
      && GetMethod(r) == DataRequestMethod.GetMethod(m)
      && HasBody(r) == DataRequestMethod.HasBody(m)
      && (GetBody(r).Some? <==> body.Some?)
  {
  }

  /** Contrary to a reading of the constructor's intent that would forbid
      it, a method without a body accepts a body: that case is no
      violation, and the body is kept. */
  lemma {:induction false} BodyWithoutBodyMethodIsAccepted(m: DataRequestMethod.Method, path: string, body: JsonObject)
    requires |path| > 0
    ensures New(Some(DataRequestMethod.Simple(m)), Some(path), None, None, Some(body)).Ok?
    ensures GetBody(New(Some(DataRequestMethod.Simple(m)), Some(path), None, None, Some(body)).value) == Some(Serialise(body))
  {
    assert !DataRequestMethod.HasBody(DataRequestMethod.Simple(m));
  }

  /** A method with a body cannot be built without one, whichever factory
      is used. */
  lemma {:induction false} BodyMethodNeedsBody(
    rm: DataRequestMethod.RequestMethod, path: Option<string>, headers: Option<StringMap>, params: Option<StringMap>)
    requires DataRequestMethod.HasBody(rm)
    ensures New(Some(rm), path, headers, params, None).Violated?
    ensures CreateSimpleDataRequest(Some(rm), path, headers, params).Violated?
    ensures CreateJsonDataRequest(Some(rm), path, headers, params, None).Violated?
  {
  }

  /** Cancelling twice is cancelling once. */
  lemma {:induction false} MarkCancelledIsIdempotent(r: DataRequest)
    ensures MarkCancelled(MarkCancelled(r)) == MarkCancelled(r)
  {
  }
}

=== FILE: data_request_method.dfy ===
/** The HTTP method of a request (`DataRequestMethod`): GET or POST, the
    methods of sections 9.3.1 and 9.3.3 of RFC 9110.
 */
module DataRequestMethod {
  import opened Wrappers
  import opened DesignByContract

  /** `DataRequestMethod.Method`: exactly these two constants. */
  datatype Method = GET | POST

  /** The code each constant carries: the transport library's
      `Request.Method.GET` (0) and `Request.Method.POST` (1). */
  function Value(m: Method): int {
    match m
    case GET => 0
    case POST => 1
  }

  /** The constant a transport code stands for. */
  function MethodOf(value: int): Option<Method> {
    if value == 0 then Some(GET) else if value == 1 then Some(POST) else None
  }

  /** The code identifies the method: reading it back gives the constant. */
  lemma {:induction false} ValueRoundTrip(m: Method)
    ensures MethodOf(Value(m)) == Some(m)
  {
    match m
    case GET =>
    case POST =>
  }

  /** A method object. `hasBodyOverride` is what a subclass's `hasBody`
      returns when it overrides it; `None` keeps the base behaviour. */
  datatype RequestMethod = RequestMethod(constant: Method, hasBodyOverride: Option<bool>)

  /** The constructor: a `null` method constant is a violation. */
  function New(constant: Option<Method>, hasBodyOverride: Option<bool>): (r: Result<RequestMethod>)
    ensures r.Violated? <==> constant.None?
    ensures r.Violated? ==> r.violation.kind == RequireKind
    ensures r.Ok? ==> GetMethod(r.value) == Value(constant.value)
    ensures r.Ok? && hasBodyOverride.None? ==> !HasBody(r.value)
  {
    var _ :- RequireNonNull(constant, NoArgs);
    Ok(RequestMethod(constant.value, hasBodyOverride))
  }

  /** `getMethod`: the transport code of the stored constant, from which
      the constant can be read back. */
  function GetMethod(rm: RequestMethod): (code: int)
    ensures MethodOf(code) == Some(rm.constant)
  {
    Value(rm.constant)
  }

  /** `hasBody`: false in the base class; only an override makes it true. */
  function HasBody(rm: RequestMethod): (b: bool)
    ensures b <==> rm.hasBodyOverride == Some(true)
  {
    rm.hasBodyOverride.GetOr(false)
  }

  /** `SimpleDataRequestMethod`: a method without a body. That class is not
      part of this model; it is taken not to override `hasBody`. */
  function Simple(m: Method): (rm: RequestMethod)
    ensures !HasBody(rm) && GetMethod(rm) == Value(m)
  {
    RequestMethod(m, None)
  }

  /** `JsonDataRequestMethod`: a method that carries a JSON body. That class
      is not part of this model; it is taken to answer `hasBody` with true. */
  function JsonWithBody(m: Method): (rm: RequestMethod)
    ensures HasBody(rm) && GetMethod(rm) == Value(m)
  {
    RequestMethod(m, Some(true))
  }
}

=== FILE: data_transaction.dfy ===
/** A submitted request paired with its outcome (`DataTransaction`,
    `DataResponse`), and the listener interface results travel through
    (`DataListener`). Those three types are not part of this model; they
    are modelled from the way the core uses them.
 */
module DataTransaction {
  import opened Wrappers
  import opened Json
  import Errors

  /** The outcome slot of a transaction: the parsed JSON of a success or
      the failure message of a failure. */
  datatype DataResponse = DataResponse(json: Option<JsonObject>, failureMessage: Option<Errors.Error>)

  const EmptyResponse := DataResponse(None, None)

  /** Exactly one of the two outcome fields is set. */
  predicate Settled(r: DataResponse) {
    r.json.Some? != r.failureMessage.Some?
  }

  /** A transaction: the index of its request in the dispatcher, and the
      response it owns. */
  datatype DataTransaction = DataTransaction(request: nat, response: DataResponse)

  /** The listener a transport request reports to: the internal listener an
      operation's `execute` installs (naming the operation and the caller's
      `OperationListener`), or a listener of some other client. */
  datatype DataListener =
    | OperationCallbacks(operation: nat, operationListener: nat)
    | ClientListener(id: nat)

  datatype Outcome = Success | Failure

  /** `listener.onSuccess(transaction)` or `listener.onFailure(transaction)`:
      a call about to be made. */
  datatype Upcall = Upcall(listener: DataListener, outcome: Outcome, transaction: DataTransaction)
}

=== FILE: data_transceiver.dfy ===
/** The dispatcher (`DataTransceiver`): it queues requests with the
    transport and routes the transport's callbacks back to the caller.

    The dispatcher's state holds every `DataRequest` object (indexed by
    position, so that an operation, a transaction and a transport request
    can share one) and the transport queue (indexed the same way: a
    request's `volleyRequest` is a queue position).

    The transport calls back through two events, `Respond` (a response body
    arrived) and `Fail` (an error). Each may happen at most once per queued
    request, and may also never happen: nothing here assumes a callback
    arrives.
 */
module DataTransceiver {
  import opened Wrappers
  import opened DesignByContract
  import opened Json
  import opened DataTransaction
  import Core
  import Errors
  import DataRequest
  import VolleyRequest
  import JsonRequest

  datatype Dispatcher = Dispatcher(requests: seq<DataRequest.DataRequest>, queue: seq<VolleyRequest.TransportRequest>)

  const Empty := Dispatcher([], [])

  /** Every index in the state points at something, and a transport
      request's response is empty until the transport reports and settled
      afterwards. */
  predicate Valid(d: Dispatcher) {
    && (forall h :: 0 <= h < |d.queue| ==> d.queue[h].transaction.request < |d.requests|)
    && (forall id :: 0 <= id < |d.requests| && d.requests[id].volleyRequest.Some? ==>
          d.requests[id].volleyRequest.value < |d.queue|
          && d.queue[d.requests[id].volleyRequest.value].transaction.request == id)
    && (forall h :: 0 <= h < |d.queue| && !d.queue[h].finished ==>
          d.queue[h].transaction.response == EmptyResponse)
    && (forall h :: 0 <= h < |d.queue| && d.queue[h].finished ==>
          Settled(d.queue[h].transaction.response))
  }

  /** The class initialiser, run on first use: it creates the transport
      queue from `Core`'s context, so it needs `Core` initialised. Here the
      failure is a require-kind violation checked at each use; in the source
      it is an initialiser error on the first use that leaves the class
      unusable for good. A violation ends the run in this model, so only the
      first use matters. */
  function GetsInstance(core: Core.CoreState): (r: Result<()>)
    ensures r.Violated? <==> core.Uninitialised?
  {
    var _ :- Core.GetInstance(core);
    Ok(())
  }

  /** `queueJsonRequest`: a cancelled request is not queued and is left
      without a transport request. A live request gets a new transaction
      around it and exactly one transport request appended to the queue,
      and is given that transport request as its handle. */
  function QueueJsonRequest(d: Dispatcher, request: Option<nat>, listener: Option<DataListener>): (r: Result<Dispatcher>)
    requires request.Some? ==> request.value < |d.requests|
    ensures r.Violated? <==> request.None? || listener.None?
    ensures r.Violated? ==> r.violation.kind == RequireKind
    ensures r.Ok? && DataRequest.IsCancelled(d.requests[request.value]) ==> r.value == d
    ensures r.Ok? && !DataRequest.IsCancelled(d.requests[request.value]) ==>
              var id := request.value;
              && r.value.queue == d.queue + [VolleyRequest.New(DataTransaction(id, EmptyResponse), d.requests[id], listener.value)]
              && r.value.requests == d.requests[id := d.requests[id].(volleyRequest := Some(|d.queue|))]
    ensures r.Ok? && Valid(d) ==> Valid(r.value)
  {
    var _ :- RequireNonNull(request, NoArgs);
    var _ :- RequireNonNull(listener, NoArgs);
    var id := request.value;
    var dataRequest := d.requests[id];
    if DataRequest.IsCancelled(dataRequest) then
      Ok(d)
    else
      var transaction := DataTransaction(id, EmptyResponse);
      var transportRequest := VolleyRequest.New(transaction, dataRequest, listener.value);
      var handle := |d.queue|;
      Ok(Dispatcher(d.requests[id := dataRequest.(volleyRequest := Some(handle))], d.queue + [transportRequest]))
  }

  /** `DataRequest.cancel`: sets the request's flag and cancels its
      transport request when it has one; nothing else changes. */
  function CancelRequest(d: Dispatcher, id: nat): (r: Dispatcher)
    requires Valid(d) && id < |d.requests|
    ensures Valid(r)
    ensures |r.requests| == |d.requests| && |r.queue| == |d.queue|
    ensures r.requests == d.requests[id := DataRequest.MarkCancelled(d.requests[id])]
    ensures d.requests[id].volleyRequest.None? ==> r.queue == d.queue
    ensures d.requests[id].volleyRequest.Some? ==>
              var h := d.requests[id].volleyRequest.value;
              r.queue == d.queue[h := d.queue[h].(cancelled := true)]
  {
    var dataRequest := d.requests[id];
    var requests := d.requests[id := DataRequest.MarkCancelled(dataRequest)];
    match dataRequest.volleyRequest
    case None => d.(requests := requests)
    case Some(h) => Dispatcher(requests, d.queue[h := d.queue[h].(cancelled := true)])
  }

  /** Cancelling a request twice is cancelling it once. */
  lemma {:induction false} CancelRequestIsIdempotent(d: Dispatcher, id: nat)
    requires Valid(d) && id < |d.requests|
    ensures CancelRequest(CancelRequest(d, id), id) == CancelRequest(d, id)
  {
    var once := CancelRequest(d, id);
    assert once.requests[id].volleyRequest == d.requests[id].volleyRequest;
  }

  /** The listener the dispatcher wraps around its caller's: success is
      passed on unchanged; failure is passed on only when the response
      carries a failure message. */
  function Forward(call: Upcall): (r: Result<Upcall>)
    ensures r.Violated? <==> call.outcome == Failure && call.transaction.response.failureMessage.None?
    ensures r.Violated? ==> r.violation.kind == RequireKind
    ensures r.Ok? ==> r.value == call
  {
    match call.outcome
    case Success => Ok(call)
    case Failure =>
      var _ :- EnsureNonNull(call.transaction.response.failureMessage, NoArgs);
      Ok(call)
  }

  /** What a transport report leaves behind: the queue entry is finished
      and settled, the call about to be made carries exactly that entry's
      transaction and listener, and nothing else in the dispatcher moved. */
  predicate Reported(d: Dispatcher, h: nat, d': Dispatcher, call: Upcall)
    requires h < |d.queue|
  {
    && d'.requests == d.requests
    && |d'.queue| == |d.queue|
    && d'.queue == d.queue[h := d'.queue[h]]
    && d'.queue[h] == d.queue[h].(transaction := d'.queue[h].transaction, finished := true)
    && d'.queue[h].transaction.request == d.queue[h].transaction.request
    && Settled(d'.queue[h].transaction.response)
    && call.listener == d.queue[h].listener
    && call.transaction == d'.queue[h].transaction
  }

  /** The transport delivers a response body for queued request `h`: it is
      parsed; an object is stored and reported as a success, anything else
      goes to the error listener as a parse error. */
  function Respond(core: Core.CoreState, d: Dispatcher, h: nat, data: string, parse: Parser): (r: Result<(Dispatcher, Upcall)>)
    requires Valid(d) && h < |d.queue| && !d.queue[h].finished
    ensures r.Violated? <==>
              parse(data).None? && VolleyRequest.FailureFor(core, JsonRequest.ParseNetworkResponse(data, parse).error).Violated?
    ensures r.Ok? ==> Valid(r.value.0) && Reported(d, h, r.value.0, r.value.1)
    ensures r.Ok? ==> (r.value.1.outcome == Success <==> parse(data).Some?)
    ensures r.Ok? && parse(data).Some? ==> r.value.1.transaction.response.json == parse(data)
    ensures r.Ok? && parse(data).None? ==>
              && r.value.1.transaction.response.failureMessage
                   == Some(VolleyRequest.FailureFor(core, JsonRequest.ParseNetworkResponse(data, parse).error).value)
              && r.value.1.transaction.response.failureMessage.value.code == Errors.Name(Errors.SERVICE_RESPONSE_ERROR)
  {
    var t := d.queue[h];
    match JsonRequest.ParseNetworkResponse(data, parse)
    case Parsed(json) =>
      var (t', call) := JsonRequest.DeliverResponse(t, json);
      var forwarded := Forward(call);
      assert forwarded.Ok?;
      Ok((d.(queue := d.queue[h := t']), forwarded.value))
    case ParseFailed(error) =>
      JsonRequest.UnparseableIsServiceResponseError(data, parse);
      ReportError(core, d, h, error)
  }

  /** The transport reports an error for queued request `h`. */
  function Fail(core: Core.CoreState, d: Dispatcher, h: nat, error: Errors.Exception): (r: Result<(Dispatcher, Upcall)>)
    requires Valid(d) && h < |d.queue| && !d.queue[h].finished
    ensures r.Violated? <==> VolleyRequest.FailureFor(core, error).Violated?
    ensures r.Ok? ==> Valid(r.value.0) && Reported(d, h, r.value.0, r.value.1)
    ensures r.Ok? ==> r.value.1.outcome == Failure
                      && r.value.1.transaction.response.failureMessage == Some(VolleyRequest.FailureFor(core, error).value)
  {
    ReportError(core, d, h, error)
  }

  /** The error listener, then the wrapping listener. The wrapper's check
      always passes here, because the failure was stored just before. */
  function ReportError(core: Core.CoreState, d: Dispatcher, h: nat, error: Errors.Exception): (r: Result<(Dispatcher, Upcall)>)
    requires Valid(d) && h < |d.queue| && !d.queue[h].finished
    ensures r.Violated? <==> VolleyRequest.FailureFor(core, error).Violated?
    ensures r.Ok? ==> Valid(r.value.0) && Reported(d, h, r.value.0, r.value.1)
    ensures r.Ok? ==> r.value.1.outcome == Failure
                      && r.value.1.transaction.response.failureMessage == Some(VolleyRequest.FailureFor(core, error).value)
                      && r.value.1.transaction.response.failureMessage.value.code == Errors.Name(VolleyRequest.Classify(error))
  {
    var reported :- VolleyRequest.OnErrorResponse(core, d.queue[h], error);
    var (t', call) := reported;
    var forwarded := Forward(call);
    assert forwarded.Ok?;
    Ok((d.(queue := d.queue[h := t']), forwarded.value))
  }

  /** `JsonRequest.getHeaders` on queued request `h`: the JSON headers are
      put into the request's own header map, which the request keeps. */
  function TransportHeaders(d: Dispatcher, h: nat, userAgent: string): (r: Option<(Dispatcher, DataRequest.StringMap)>)
    requires Valid(d) && h < |d.queue|
    ensures r.None? <==> d.requests[d.queue[h].transaction.request].headers.None?
    ensures r.Some? ==>
              var id := d.queue[h].transaction.request;
              && r.value.1 == JsonRequest.GetHeaders(d.requests[id].headers, userAgent).value
              && r.value.0 == d.(requests := d.requests[id := d.requests[id].(headers := Some(r.value.1))])
  {
    var id := d.queue[h].transaction.request;
    var headers := JsonRequest.GetHeaders(VolleyRequest.GetHeaders(d.requests[id]), userAgent);
    match headers
    case None => None
    case Some(m) => Some((d.(requests := d.requests[id := d.requests[id].(headers := Some(m))]), m))
  }
}

=== FILE: design_by_contract.dfy ===
/** The SDK's design-by-contract helpers (`DesignByContract`).

    In the source every helper either returns normally or throws one of two
    unchecked exceptions, `DesignByContractRequireException` or
    `DesignByContractEnsureException`. Nothing in the SDK catches them, so a
    violation ends the current call chain. Here a helper returns
    `Ok(())` or `Violated(v)`, and callers thread the outcome with `:-`.
 */
module DesignByContract {
  import opened Wrappers

  /** Which of the two exception classes was thrown. */
  datatype Kind = RequireKind | EnsureKind

  /** A thrown contract exception: its class and its message text. */
  datatype Violation = Violation(kind: Kind, message: string)

  /** The outcome of a call that may end in a contract violation. */
  datatype Result<+T> = Ok(value: T) | Violated(violation: Violation) {
    predicate IsFailure() { Violated? }

    function PropagateFailure<U>(): Result<U>
      requires Violated?
    {
      Violated(violation)
    }

    function Extract(): T
      requires Ok?
    {
      value
    }
  }

  /** A Java `String...` parameter: the array itself may be `null`, and so
      may each of its elements. */
  type Args = Option<seq<Option<string>>>

  /** A call that passes no optional arguments. */
  const NoArgs: Args := Some([])

  /** A call that passes one optional argument. */
  function Arg(s: string): Args {
    Some([Some(s)])
  }

  const RequirePrefix := "Design By Contract Exception. !!!REQUIRE!!! ->>"
  const EnsurePrefix := "Design By Contract Exception. !!!ENSURE!!! ->>"
  const EnsureSuffix := " failed."

  /** `getOptionalMessage`: the first optional argument when it is there and
      non-empty, and `""` in every other case. */
  function OptionalMessage(params: Args): (r: string)
    ensures |r| > 0 <==>
              params.Some? && |params.value| > 0 && !IsEmptyText(params.value[0])
    ensures |r| > 0 ==> params.value[0] == Some(r)
  {
    if params.Some? && |params.value| > 0 && !IsEmptyText(params.value[0])
    then params.value[0].value
    else ""
  }

  /** `require`: throws the require kind exactly when `condition` is false. */
  function Require(condition: bool, message: string): (r: Result<()>)
    ensures r.Violated? <==> !condition
    ensures r.Violated? ==> r.violation == Violation(RequireKind, RequirePrefix + message)
  {
    if condition then Ok(()) else Violated(Violation(RequireKind, RequirePrefix + message))
  }

  /** `ensure`: throws the ensure kind exactly when `condition` is false. */
  function Ensure(condition: bool, message: string): (r: Result<()>)
    ensures r.Violated? <==> !condition
    ensures r.Violated? ==>
              r.violation == Violation(EnsureKind, EnsurePrefix + message + EnsureSuffix)
  {
    if condition then Ok(()) else Violated(Violation(EnsureKind, EnsurePrefix + message + EnsureSuffix))
  }

  /** `requireNonNull`. */
  function RequireNonNull<T>(obj: Option<T>, paramName: Args): (r: Result<()>)
    ensures r.Violated? <==> obj.None?
    ensures r.Violated? ==>
              r.violation == Violation(RequireKind, RequirePrefix + "non null object(" + OptionalMessage(paramName) + ")")
  {
    Require(obj.Some?, "non null object(" + OptionalMessage(paramName) + ")")
  }

  /** `requireNonEmptyString`. The detail of the length failure is the
      empty string: the source builds a detailed message and then passes
      `getOptionalMessage()` with no arguments instead. */
  function RequireNonEmptyString(str: Option<string>, paramName: Args): (r: Result<()>)
    ensures r.Violated? <==> IsEmptyText(str)
    ensures r.Violated? ==> r.violation.kind == RequireKind
    ensures str.Some? && r.Violated? ==> r.violation.message == RequirePrefix
  {
    var _ :- RequireNonNull(str, paramName);
    Require(|str.value| > 0, if IsEmptyText(Some(OptionalMessage(NoArgs))) then OptionalMessage(NoArgs) else "non empty string")
  }

  /** `requireNonEmptyCollection`, with a sequence for the collection. */
  function RequireNonEmptyCollection<T>(collection: Option<seq<T>>, paramName: Args): (r: Result<()>)
    ensures r.Violated? <==> collection.None? || |collection.value| == 0
    ensures r.Violated? ==> r.violation.kind == RequireKind
  {
    var _ :- RequireNonNull(collection, paramName);
    Require(|collection.value| > 0, "non empty collection(" + OptionalMessage(paramName) + ")")
  }

  /** `requireNonEmptyMap`. */
  function RequireNonEmptyMap<K, V>(m: Option<map<K, V>>, paramName: Args): (r: Result<()>)
    ensures r.Violated? <==> m.None? || |m.value| == 0
    ensures r.Violated? ==> r.violation.kind == RequireKind
  {
    var _ :- RequireNonNull(m, paramName);
    Require(|m.value| > 0, "non empty map.(" + OptionalMessage(paramName) + ")")
  }

  /** `requireAny`: documents that `null` is accepted; never fails. */
  function RequireAny<T>(obj: Option<T>): (r: Result<()>)
    ensures r.Ok?
  {
    Ok(())
  }

  /** `requireShouldOverRide`: always fails. Its arguments do not reach the
      message, which calls `getOptionalMessage()` with none. */
  function RequireShouldOverRide(optionalMessage: Args): (r: Result<()>)
    ensures r.Violated? && r.violation.kind == RequireKind
    ensures r.violation.message == RequirePrefix + " sub class should override:  "
  {
    Require(false, " sub class should override:  " + OptionalMessage(NoArgs))
  }

  /** `requireShouldNeverReachHere`: always fails. */
  function RequireShouldNeverReachHere(): (r: Result<()>)
    ensures r.Violated? && r.violation.kind == RequireKind
  {
    Require(false, "should never reach here")
  }

  /** `ensureNonEmptyCollection`: its failures are of the require kind. */
  function EnsureNonEmptyCollection<T>(collection: Option<seq<T>>, paramName: Args): (r: Result<()>)
    ensures r.Violated? <==> collection.None? || |collection.value| == 0
    ensures r.Violated? ==> r.violation.kind == RequireKind
  {
    var _ :- RequireNonNull(collection, NoArgs);
    Require(|collection.value| > 0, "non empty collection(" + OptionalMessage(paramName) + ")")
  }

  /** `ensureNonEmptyMap`: its failures are of the require kind. */
  function EnsureNonEmptyMap<K, V>(m: Option<map<K, V>>, paramName: Args): (r: Result<()>)
    ensures r.Violated? <==> m.None? || |m.value| == 0
    ensures r.Violated? ==> r.violation.kind == RequireKind
  {
    var _ :- RequireNonNull(m, NoArgs);
    Require(|m.value| > 0, "non empty map.(" + OptionalMessage(paramName) + ")")
  }

  /** `ensureNonNull`: the same check and message as `requireNonNull`,
      and so the require kind, not the ensure kind. */
  function EnsureNonNull<T>(obj: Option<T>, paramName: Args): (r: Result<()>)
    ensures r.Violated? <==> obj.None?
    ensures r.Violated? ==> r.violation.kind == RequireKind
  {
    Require(obj.Some?, "non null object(" + OptionalMessage(paramName) + ")")
  }

  /** `ensureNonEmptyString`: the require kind as well; a `null` string is
      reported without the parameter name. */
  function EnsureNonEmptyString(str: Option<string>, paramName: Args): (r: Result<()>)
    ensures r.Violated? <==> IsEmptyText(str)
    ensures r.Violated? ==> r.violation.kind == RequireKind
    ensures str.None? ==> r.violation.message == RequirePrefix + "non null object()"
    ensures str.Some? && r.Violated? ==>
              r.violation.message == RequirePrefix + "non empty string(" + OptionalMessage(paramName) + ")"
  {
    var _ :- RequireNonNull(str, NoArgs);
    Require(|str.value| > 0, "non empty string(" + OptionalMessage(paramName) + ")")
  }

  /** `ensureAny`: never fails. */
  function EnsureAny<T>(obj: Option<T>): (r: Result<()>)
    ensures r.Ok?
  {
    Ok(())
  }

  /** Of all the helpers only `ensure` raises the ensure kind: the two
      prefixes differ, so the kind can be read off the message. */
  lemma {:induction false} KindIsVisibleInMessage(condition: bool, message: string)
    requires !condition
    ensures Require(condition, message).violation.message != Ensure(condition, message).violation.message
  {
    var req := Require(condition, message).violation.message;
    var ens := Ensure(condition, message).violation.message;
    assert req[33] == 'R';
    assert ens[33] == 'E';
  }
}

=== FILE: errors.dfy ===
/** Failure values (`Error`, the SDK's `FailureMessage`) and the exceptions
    they may carry.
 */
module Errors {
  import opened Wrappers
  import opened DesignByContract
  import Core

  /** The classes of throwable the core distinguishes. `NetworkErrorClass`
      stands for Volley's `NetworkError` and any subclass of it; the other
      Volley errors the core does not single out are `OtherVolleyErrorClass`. */
  datatype ExceptionClass =
    | NetworkErrorClass
    | ParseErrorClass
    | OtherVolleyErrorClass
    | JsonExceptionClass
    | OtherThrowableClass

  /** A throwable: its class, its (nullable) message and its (nullable)
      cause. */
  datatype Exception = Exception(cls: ExceptionClass, message: Option<string>, cause: Option<Exception>)

  /** `instanceof NetworkError`, for a reference that may be `null`. */
  predicate IsNetworkError(e: Option<Exception>) {
    e.Some? && e.value.cls == NetworkErrorClass
  }

  /** `Error.Code`. */
  datatype Code = UNKNOWN | SERVICE_RESPONSE_ERROR | NETWORK_ERROR

  /** `Code.toString()`, which is `Enum.name()`. */
  function Name(code: Code): (name: string)
    ensures |name| > 0
  {
    match code
    case UNKNOWN => "UNKNOWN"
    case SERVICE_RESPONSE_ERROR => "SERVICE_RESPONSE_ERROR"
    case NETWORK_ERROR => "NETWORK_ERROR"
  }

  /** The string resource each code carries: only the network code has
      the network-unavailable text. */
  function MessageResource(code: Code): (r: Core.StringResource)
    ensures r == Core.ErrorMessageNetworkUnavailable <==> code == NETWORK_ERROR
  {
    match code
    case UNKNOWN => Core.ErrorMessageUnknown
    case SERVICE_RESPONSE_ERROR => Core.ErrorMessageUnknown
    case NETWORK_ERROR => Core.ErrorMessageNetworkUnavailable
  }

  /** Distinct codes have distinct names, so the name identifies the code. */
  lemma {:induction false} NamesAreDistinct(c1: Code, c2: Code)
    ensures Name(c1) == Name(c2) <==> c1 == c2
  {
    if c1 != c2 {
      match c1
      case UNKNOWN => assert Name(c1)[0] == 'U';
        assert Name(c2)[0] != 'U';
      case SERVICE_RESPONSE_ERROR => assert Name(c1)[0] == 'S';
        assert Name(c2)[0] != 'S';
      case NETWORK_ERROR => assert Name(c1)[0] == 'N';
        assert Name(c2)[0] != 'N';
    }
  }

  /** Only the network code has a message of its own; the other two share
      the generic one. */
  lemma {:induction false} SharedMessageResource(c1: Code, c2: Code)
    ensures MessageResource(c1) == MessageResource(c2) <==> (c1 == c2 || (c1 != NETWORK_ERROR && c2 != NETWORK_ERROR))
  {
  }

  /** An immutable failure value. */
  datatype Error = Error(code: string, message: string, exception: Option<Exception>)

  /** What every constructed `Error` satisfies. */
  predicate Valid(e: Error) {
    |e.code| > 0 && |e.message| > 0
  }

  /** The private constructor. */
  function New(code: Option<string>, message: Option<string>, exception: Option<Exception>): (r: Result<Error>)
    ensures r.Violated? <==> IsEmptyText(code) || IsEmptyText(message)
    ensures r.Violated? ==> r.violation.kind == RequireKind
    ensures r.Ok? ==> Valid(r.value)
                      && r.value.code == code.value
                      && r.value.message == message.value
                      && r.value.exception == exception
  {
    var _ :- RequireNonEmptyString(code, NoArgs);
    var _ :- RequireNonEmptyString(message, NoArgs);
    // requireAny(exception): null is accepted
    Ok(Error(code.value, message.value, exception))
  }

  /** `CreateErrorMessage`: code and message must be non-empty, the
      exception is optional, and the getters give back the arguments. */
  function CreateErrorMessage(code: Option<string>, message: Option<string>, exception: Option<Exception>): (r: Result<Error>)
    ensures r.Violated? <==> IsEmptyText(code) || IsEmptyText(message)
    ensures r.Violated? ==> r.violation.kind == RequireKind
    ensures r.Ok? ==> Valid(r.value)
                      && GetCode(r.value) == code.value
                      && GetMessage(r.value) == message.value
                      && GetException(r.value) == exception
  {
    var _ :- RequireNonEmptyString(code, NoArgs);
    var _ :- RequireNonEmptyString(message, NoArgs);
    // requireAny(exception): null is accepted
    New(code, message, exception)
  }

  /** `CreateErrorMessageWithCode`: the code's name becomes the code and
      the code's string resource, read through `Core`, the message. Before
      `Core.init` the lookup is a violation; so is an empty resource text. */
  function CreateErrorMessageWithCode(core: Core.CoreState, code: Option<Code>, exception: Option<Exception>): (r: Result<Error>)
    ensures r.Violated? <==>
              || code.None?
              || core.Uninitialised?
              || |Core.GetString(core.instance.applicationContext, MessageResource(code.value))| == 0
    ensures r.Ok? ==> Valid(r.value)
                      && GetCode(r.value) == Name(code.value)
                      && GetMessage(r.value) == Core.GetString(core.instance.applicationContext, MessageResource(code.value))
                      && GetException(r.value) == exception
  {
    var _ :- RequireNonNull(code, NoArgs);
    // requireAny(exception): null is accepted
    var instance :- Core.GetInstance(core);
    New(Some(Name(code.value)), Some(Core.GetString(instance.applicationContext, MessageResource(code.value))), exception)
  }

  /** `getCode`: never empty for a constructed error. */
  function GetCode(e: Error): (code: string)
    ensures Valid(e) ==> |code| > 0
  {
    e.code
  }

  /** `getMessage`: never empty for a constructed error. */
  function GetMessage(e: Error): (message: string)
    ensures Valid(e) ==> |message| > 0
  {
    e.message
  }

  /** `getException`: `null` only for an error whose `toString` ends in an
      empty exception text. */
  function GetException(e: Error): (exception: Option<Exception>)
    ensures exception.None? ==> ExceptionText(e.exception) == ""
  {
    e.exception
  }

  /** The getters of a constructed error read back what the constructor
      was given. */
  lemma {:induction false} GettersReadBackArguments(code: string, message: string, exception: Option<Exception>)
    requires New(Some(code), Some(message), exception).Ok?
    ensures
      var e := New(Some(code), Some(message), exception).value;
      && GetCode(e) == code && GetMessage(e) == message && GetException(e) == exception
  {
  }

  /** `getExceptionMessage` as `StringBuilder.append` sees it: `""` without
      an exception, `"null"` for an exception whose message is `null`. */
  function ExceptionText(exception: Option<Exception>): (text: string)
    ensures exception.None? ==> text == ""
    ensures exception.Some? && exception.value.message.Some? ==> text == exception.value.message.value
    ensures exception.Some? && exception.value.message.None? ==> text == "null"
  {
    match exception
    case None => ""
    case Some(ex) =>
      match ex.message
      case None => "null"
      case Some(m) => m
  }

  const CodeLabel := "code: "
  const MessageLabel := " message: "
  const ExceptionLabel := " exception: "

  /** `toString`: the three labelled parts, in order. */
  function ToString(e: Error): (s: string)
    ensures |s| == |CodeLabel| + |e.code| + |MessageLabel| + |e.message| + |ExceptionLabel| + |ExceptionText(e.exception)|
    ensures s[..|CodeLabel|] == CodeLabel
    ensures s[|CodeLabel|..|CodeLabel| + |e.code|] == e.code
    ensures s[|s| - |ExceptionText(e.exception)|..] == ExceptionText(e.exception)
  {
    CodeLabel + e.code + MessageLabel + e.message + ExceptionLabel + ExceptionText(e.exception)
  }

  /** In a three-part concatenation the middle part starts right after the
      first. */
  lemma {:induction false} MiddleOfConcat(a: string, b: string, c: string)
    ensures (a + b + c)[|a|..|a| + |b|] == b
  {
    assert (a + b + c)[|a|..|a| + |b|] == (a + b)[|a|..];
  }

  /** The fixed shape of `toString` between code and exception text: the
      message label right after the code, the message right after that
      label, and the exception label right after the message. */
  lemma {:induction false} ToStringStartsWithCode(e: Error)
    ensures
      var i := |CodeLabel| + |e.code|;
      var j := i + |MessageLabel|;
      var k := j + |e.message|;
      && ToString(e)[i..j] == MessageLabel
      && ToString(e)[j..k] == e.message
      && ToString(e)[k..k + |ExceptionLabel|] == ExceptionLabel
  {
    var t := ExceptionText(e.exception);
    var head := CodeLabel + e.code;
    assert ToString(e) == head + MessageLabel + (e.message + ExceptionLabel + t);
    MiddleOfConcat(head, MessageLabel, e.message + ExceptionLabel + t);
    assert ToString(e) == (head + MessageLabel) + e.message + (ExceptionLabel + t);
    MiddleOfConcat(head + MessageLabel, e.message, ExceptionLabel + t);
    assert ToString(e) == (head + MessageLabel + e.message) + ExceptionLabel + t;
    MiddleOfConcat(head + MessageLabel + e.message, ExceptionLabel, t);
  }
}

=== FILE: json.dfy ===
/** JSON objects (RFC 8259), as far as the core handles them.

    The core never looks inside a JSON object: it parses response text into
    one, stores it, serialises request bodies from one, and hands it to the
    decoder. An object is therefore represented by its serialised text, and
    parsing is a capability passed in by the caller.
 */
module Json {
  import opened Wrappers

  /** An `org.json.JSONObject`, by its serialised text. */
  datatype JsonObject = JsonObject(text: string)

  /** `JSONObject.toString()`. */
  function Serialise(j: JsonObject): string {
    j.text
  }

  /** `new JSONObject(text)`: an object, or `None` where the library throws
      `JSONException`. */
  type Parser = string -> Option<JsonObject>
}

=== FILE: json_request.dfy ===
/** The JSON flavour of the transport request (`JsonRequest`): it parses the
    response body into a JSON object, stores it before reporting success,
    and adds the JSON headers.
 */
module JsonRequest {
  import opened Wrappers
  import opened Json
  import opened DataTransaction
  import Errors
  import DataRequest
  import VolleyRequest

  /** What `parseNetworkResponse` hands back to the transport: a parsed
      object, or an error wrapping the parser's exception. */
  datatype ParseResult = Parsed(json: JsonObject) | ParseFailed(error: Errors.Exception)

  /** The `JSONException` a parse failure throws. Its message is the
      parser's and is not modelled. */
  const ParserException := Errors.Exception(Errors.JsonExceptionClass, None, None)

  /** `parseNetworkResponse`, outcome only: text that parses yields a
      success with that object; anything else a `ParseError` whose cause is
      the `JSONException`. */
  function ParseNetworkResponse(data: string, parse: Parser): (r: ParseResult)
    ensures parse(data).Some? <==> r.Parsed?
    ensures r.Parsed? ==> r.json == parse(data).value
    ensures r.ParseFailed? ==> r.error.cls == Errors.ParseErrorClass
                               && r.error.cause == Some(ParserException)
  {
    match parse(data)
    case Some(json) => Parsed(json)
    case None => ParseFailed(Errors.Exception(Errors.ParseErrorClass, None, Some(ParserException)))
  }

  /** Unparseable text ends, through the error listener, as a service
      response error. */
  lemma {:induction false} UnparseableIsServiceResponseError(data: string, parse: Parser)
    requires parse(data).None?
    ensures ParseNetworkResponse(data, parse).ParseFailed?
    ensures VolleyRequest.Classify(ParseNetworkResponse(data, parse).error) == Errors.SERVICE_RESPONSE_ERROR
  {
    var r := ParseNetworkResponse(data, parse);
    assert !Errors.IsNetworkError(r.error.cause);
  }

  /** `deliverResponse`: the object is stored on the response first, then
      the listener's `onSuccess` is called with that transaction. */
  function DeliverResponse(t: VolleyRequest.TransportRequest, json: JsonObject): (r: (VolleyRequest.TransportRequest, Upcall))
    ensures r.0.finished
    ensures r.0 == t.(transaction := r.0.transaction, finished := true)
    ensures r.0.transaction.request == t.transaction.request
    ensures r.0.transaction.response == t.transaction.response.(json := Some(json))
    ensures r.1 == Upcall(t.listener, Success, r.0.transaction)
  {
    var response := t.transaction.response.(json := Some(json));
    var transaction := t.transaction.(response := response);
    (t.(transaction := transaction, finished := true), Upcall(t.listener, Success, transaction))
  }

  const ContentTypeKey := "Content-Type"
  const ContentTypeJson := "application/json; charset=utf-8"
  const UserAgentKey := "User-agent"

  /** `getHeaders`: the request's own header map with the content type and
      the platform's user agent put into it. A `null` map makes `put`
      throw; that is `None` here. */
  function GetHeaders(headers: Option<DataRequest.StringMap>, userAgent: string): (r: Option<DataRequest.StringMap>)
    ensures r.None? <==> headers.None?
    ensures r.Some? ==> ContentTypeKey in r.value && r.value[ContentTypeKey] == ContentTypeJson
    ensures r.Some? ==> UserAgentKey in r.value && r.value[UserAgentKey] == userAgent
    ensures r.Some? ==> r.value.Keys == headers.value.Keys + {ContentTypeKey, UserAgentKey}
    ensures r.Some? ==> forall k :: k in headers.value && k != ContentTypeKey && k != UserAgentKey ==>
                                      r.value[k] == headers.value[k]
  {
    match headers
    case None => None
    case Some(h) => Some(h[ContentTypeKey := ContentTypeJson][UserAgentKey := userAgent])
  }

  /** Adding the headers a second time changes nothing. */
  lemma {:induction false} GetHeadersIsIdempotent(headers: DataRequest.StringMap, userAgent: string)
    ensures GetHeaders(GetHeaders(Some(headers), userAgent), userAgent) == GetHeaders(Some(headers), userAgent)
  {
    var once := GetHeaders(Some(headers), userAgent).value;
    var twice := GetHeaders(Some(once), userAgent).value;
    assert twice.Keys == once.Keys;
    assert forall k :: k in twice ==> twice[k] == once[k];
    assert twice == once;
  }
}

=== FILE: logger.dfy ===
/** The SDK's level filter in front of `android.util.Log` (`Logger`).

    Only the filter and the return convention are modelled: what the
    Android sink writes, and the count it returns, are inputs here.
 */
module Logger {
  import opened Wrappers
  import opened DesignByContract

  /** `Logger.LogLevel`, in declaration order. The Android priority each
      constant carries is never read by the filter, so it is left out. */
  datatype LogLevel = VERBOSE | DEBUG | INFO | WARN | ERROR | OFF

  /** The constants in declaration order. */
  const Levels: seq<LogLevel> := [VERBOSE, DEBUG, INFO, WARN, ERROR, OFF]

  /** `Enum.ordinal()`: the position of the constant in its declaration. */
  function Ordinal(level: LogLevel): (r: nat)
    ensures r < |Levels| && Levels[r] == level
  {
    match level
    case VERBOSE => 0
    case DEBUG => 1
    case INFO => 2
    case WARN => 3
    case ERROR => 4
    case OFF => 5
  }

  /** The static `currentLogLevel`. The private constructor that would set
      it is never invoked, so it stays `null` until `overrideLogLevel`. */
  datatype LoggerState = LoggerState(current: Option<LogLevel>)

  const Initial := LoggerState(None)

  /** `overrideLogLevel`: rejects `null` and otherwise installs the level. */
  function OverrideLogLevel(state: LoggerState, level: Option<LogLevel>): (r: Result<LoggerState>)
    ensures r.Violated? <==> level.None?
    ensures r.Violated? ==> r.violation.kind == RequireKind
    ensures r.Ok? ==> r.value.current == level
  {
    var _ :- RequireNonNull(level, NoArgs);
    Ok(LoggerState(level))
  }

  /** The outcome of `shouldLog`: a decision, or the `NullPointerException`
      thrown by reading the ordinal of a `null` current level. */
  datatype Decision = Decided(passes: bool) | NullPointerThrown

  /** `shouldLog`, as written. */
  function ShouldLog(state: LoggerState, level: LogLevel): (r: Decision)
    ensures r.NullPointerThrown? <==> state.current.None?
    ensures r.Decided? ==> (r.passes <==> Ordinal(state.current.value) <= Ordinal(level))
  {
    match state.current
    case None => NullPointerThrown
    case Some(current) => Decided(Ordinal(level) >= Ordinal(current))
  }

  /** The logging entry points: `v`, `d`, `i`, `w`, `e`, each with and
      without a throwable, and `w(tag, throwable)`. */
  datatype Call =
    | V | VWithThrowable
    | D | DWithThrowable
    | I | IWithThrowable
    | W | WWithThrowable | WThrowableOnly
    | E | EWithThrowable

  /** The level an entry point passes to `shouldLog`. No entry point is
      gated at OFF, so OFF silences all of them. */
  function GateLevel(call: Call): (level: LogLevel)
    ensures level != OFF
  {
    match call
    case V | VWithThrowable => VERBOSE
    case D | DWithThrowable => DEBUG
    case I | IWithThrowable => INFO
    case W | WWithThrowable | WThrowableOnly => WARN
    case E | EWithThrowable => ERROR
  }

  /** The `android.util.Log` method an entry point writes through, as
      written: `e(tag, msg, tr)` calls `Log.w`. */
  function Sink(call: Call): (sink: LogLevel)
    ensures sink == GateLevel(call) <==> call != EWithThrowable
  {
    match call
    case EWithThrowable => WARN
    case _ => GateLevel(call)
  }

  /** The result of one entry-point call: written to a sink (returning what
      the sink returned), skipped, or aborted by `shouldLog`. */
  datatype LogOutcome = Written(sink: LogLevel, returned: int) | Skipped | NullPointerAbort

  /** The `int` the entry point returns; a skipped call returns -1. */
  function Returned(outcome: LogOutcome): (r: int)
    requires !outcome.NullPointerAbort?
    ensures outcome.Skipped? ==> r == -1
    ensures outcome.Written? ==> r == outcome.returned
  {
    if outcome.Written? then outcome.returned else -1
  }

  /** One entry-point call, as written. `sinkReturn` stands for what the
      Android sink would return. */
  function Log(state: LoggerState, call: Call, sinkReturn: int): (r: LogOutcome)
    ensures r.NullPointerAbort? <==> state.current.None?
    ensures r.Skipped? <==> state.current.Some? && Ordinal(GateLevel(call)) < Ordinal(state.current.value)
    ensures r.Written? ==> r.sink == Sink(call) && r.returned == sinkReturn
  {
    match ShouldLog(state, GateLevel(call))
    case NullPointerThrown => NullPointerAbort
    case Decided(passes) => if passes then Written(Sink(call), sinkReturn) else Skipped
  }

  /** A skipped call writes nothing and returns -1. */
  lemma SkippedReturnsMinusOne(state: LoggerState, call: Call, sinkReturn: int)
    requires state.current.Some?
    requires Ordinal(GateLevel(call)) < Ordinal(state.current.value)
    ensures Log(state, call, sinkReturn) == Skipped
    ensures Returned(Log(state, call, sinkReturn)) == -1
  {
  }

  /** The filter is monotone: a level that passes lets every higher level
      pass as well. */
  lemma {:induction false} FilterIsMonotone(state: LoggerState, low: LogLevel, high: LogLevel)
    requires Ordinal(low) <= Ordinal(high)
    requires ShouldLog(state, low) == Decided(true)
    ensures ShouldLog(state, high) == Decided(true)
  {
  }

  /** With `OFF` nothing passes; with `VERBOSE` everything does. */
  lemma {:induction false} OffAndVerboseAreTheExtremes(level: LogLevel)
    ensures level != OFF ==> ShouldLog(LoggerState(Some(OFF)), level) == Decided(false)
    ensures ShouldLog(LoggerState(Some(VERBOSE)), level) == Decided(true)
  {
    assert Ordinal(level) <= Ordinal(OFF);
  }

  /** Before `overrideLogLevel` every entry point throws, `e` included. */
  lemma {:induction false} UnsetLevelThrows(call: Call, sinkReturn: int)
    ensures Log(Initial, call, sinkReturn) == NullPointerAbort
  {
  }

  /** `e(tag, msg, tr)` is gated at ERROR but written as a warning. */
  lemma {:induction false} ErrorWithThrowableIsWrittenAsWarning(sinkReturn: int)
    ensures Log(LoggerState(Some(ERROR)), EWithThrowable, sinkReturn) == Written(WARN, sinkReturn)
    ensures Sink(EWithThrowable) != GateLevel(EWithThrowable)
  {
  }

  // ---------------------------------------------------------------------
  // The filter as evidently intended: a default level applies until
  // `overrideLogLevel` is called (the class comment names DEBUG), and
  // every entry point writes through the sink of the level it is gated at.

  const DefaultLevel := DEBUG

  /** `shouldLog` with the documented default in place of `null`. */
  function ShouldLogDefaulted(state: LoggerState, level: LogLevel): (passes: bool)
    ensures passes <==> Ordinal(state.current.GetOr(DefaultLevel)) <= Ordinal(level)
  {
    Ordinal(level) >= Ordinal(state.current.GetOr(DefaultLevel))
  }

  /** One entry-point call with both corrections. */
  function LogAsIntended(state: LoggerState, call: Call, sinkReturn: int): (r: LogOutcome)
    ensures !r.NullPointerAbort?
    ensures r.Written? ==> r.sink == GateLevel(call) && r.returned == sinkReturn
    ensures r.Skipped? <==> Ordinal(GateLevel(call)) < Ordinal(state.current.GetOr(DefaultLevel))
  {
    if ShouldLogDefaulted(state, GateLevel(call)) then Written(GateLevel(call), sinkReturn) else Skipped
  }

  /** Corrected, `e(tag, msg, tr)` at level ERROR is written as an error,
      where the source writes it as a warning. */
  lemma {:induction false} ErrorWithThrowableIsWrittenAsError(sinkReturn: int)
    ensures LogAsIntended(LoggerState(Some(ERROR)), EWithThrowable, sinkReturn) == Written(ERROR, sinkReturn)
    ensures LogAsIntended(LoggerState(Some(ERROR)), EWithThrowable, sinkReturn)
            != Log(LoggerState(Some(ERROR)), EWithThrowable, sinkReturn)
  {
  }

  /** Once a level is set, the corrected filter agrees with the source on
      every call except where the source writes `e(tag, msg, tr)` as a
      warning. */
  lemma {:induction false} IntendedAgreesOnceLevelIsSet(state: LoggerState, call: Call, sinkReturn: int)
    requires state.current.Some?
    requires call != EWithThrowable
    ensures LogAsIntended(state, call, sinkReturn) == Log(state, call, sinkReturn)
  {
  }
}

=== FILE: scenarios.dfy ===
/** The pipeline's behaviour on concrete inputs, stated and proved: an
    application initialises `Core` with a base URL, creates one operation
    that fetches `/questions` with a plain GET, executes it, and then sees
    one transport event.
 */
module Scenarios {
  import opened Wrappers
  import opened DesignByContract
  import opened Json
  import opened DataTransaction
  import Core
  import Errors
  import DataRequest
  import DataRequestMethod
  import VolleyRequest
  import opened ServiceOperation

  const UnknownText := "Something went wrong"
  const NetworkText := "No network connection"
  const AppContext := Core.Context(Core.Resources(UnknownText, NetworkText))
  const BaseUrl := "http://private-8d0f8-androidmoveframeworkapi.apiary-mock.com"
  const QuestionsType := ClassType("Question", {})

  /** The caller's `OperationListener`. */
  const Caller: nat := 7

  /** The operation's `getDataRequest`: a GET without a body. */
  function GetQuestions(path: string, headers: DataRequest.StringMap, params: DataRequest.StringMap)
    : Result<Option<DataRequest.DataRequest>>
  {
    var request :- DataRequest.CreateSimpleDataRequest(
      Some(DataRequestMethod.Simple(DataRequestMethod.GET)), Some(path), Some(headers), Some(params));
    Ok(Some(request))
  }

  const Questions := Subclass(Some("/questions"), None, GetQuestions)

  /** A parser that accepts every text, and a decoder that yields an object
      of the requested class. */
  const AcceptAll: Parser := (text: string) => Some(JsonObject(text))
  const DecodeAsRequested: Decoder := (json: JsonObject, t: TypeTag) => Some(Decoded(Value(json.text), t))

  /** Everything up to and including `execute`. */
  ghost function Submitted(): (r: Result<System>)
    ensures r.Ok? ==> Inv(r.value)
  {
    StartIsValid();
    var s := InitCore(Start, Some(AppContext), Some(BaseUrl)).value;
    var created := NewOperation(s, Some(QuestionsType)).value;
    Execute(created.0, created.1, Caller, Questions)
  }

  lemma {:induction false} SubmittedQueuesOneRequest()
    ensures Submitted().Ok?
    ensures |Submitted().value.operations| == 1
    ensures |Submitted().value.dispatcher.queue| == 1
    ensures Pending(Submitted().value, 0, 0)
    ensures Submitted().value.dispatcher.queue[0].url == BaseUrl + "/questions"
    ensures Submitted().value.dispatcher.queue[0].methodCode == DataRequestMethod.Value(DataRequestMethod.GET)
    ensures Submitted().value.notifications == []
  {
    StartIsValid();
    var s1 := InitCore(Start, Some(AppContext), Some(BaseUrl));
    assert s1.Ok?;
    var created := NewOperation(s1.value, Some(QuestionsType));
    assert created.Ok? && created.value.1 == 0;
    var s2 := created.value.0;
    assert GenerateUrl(s2.core, Questions) == Ok(BaseUrl + "/questions");
    var built := GetQuestions(BaseUrl + "/questions", map[], map[]);
    assert built.Ok? && built.value.Some? && !DataRequest.IsCancelled(built.value.value);
    assert BuiltRequest(s2, Questions) == Some(built.value.value);
  }

  /** A GET of `/questions` that succeeds reaches the caller exactly once,
      with the decoded result, and leaves the operation Idle. */
  lemma {:induction false} QuestionsSucceedOnce(data: string)
    ensures SubmittedQueuesOneRequestHolds() && TransportResponds(Submitted().value, 0, data, AcceptAll, DecodeAsRequested).Ok?
    ensures
      var s := TransportResponds(Submitted().value, 0, data, AcceptAll, DecodeAsRequested).value;
      && s.notifications == [Succeeded(Caller, Some(Value(data)))]
      && |s.operations| == 1 && Idle(s.operations[0])
  {
    SubmittedQueuesOneRequest();
  }

  /** A transport error whose cause is a network error reaches the caller
      as a `NETWORK_ERROR` failure carrying the network-unavailable text
      and the transport error itself. */
  lemma {:induction false} NetworkErrorIsReported(message: Option<string>)
    ensures SubmittedQueuesOneRequestHolds()
    ensures
      var error := Errors.Exception(Errors.OtherVolleyErrorClass, message, Some(Errors.Exception(Errors.NetworkErrorClass, None, None)));
      var r := TransportFails(Submitted().value, 0, error, DecodeAsRequested);
      && r.Ok?
      && r.value.notifications == [Failed(Caller, Some(Errors.Error("NETWORK_ERROR", NetworkText, Some(error))))]
      && Idle(r.value.operations[0])
  {
    SubmittedQueuesOneRequest();
    var error := Errors.Exception(Errors.OtherVolleyErrorClass, message, Some(Errors.Exception(Errors.NetworkErrorClass, None, None)));
    assert VolleyRequest.Classify(error) == Errors.NETWORK_ERROR;
  }

  /** Executed, then cancelled: `cancel` returns true, and a success that
      still arrives reaches nobody and leaves the operation Idle. */
  lemma {:induction false} CancelledOperationStaysSilent(data: string)
    ensures SubmittedQueuesOneRequestHolds()
    ensures Cancel(Submitted().value, 0).1
    ensures
      var s := Cancel(Submitted().value, 0).0;
      && s.dispatcher.queue[0].cancelled
      && !s.dispatcher.queue[0].finished
      && TransportResponds(s, 0, data, AcceptAll, DecodeAsRequested).Ok?
      && TransportResponds(s, 0, data, AcceptAll, DecodeAsRequested).value.notifications == []
      && Idle(TransportResponds(s, 0, data, AcceptAll, DecodeAsRequested).value.operations[0])
  {
    SubmittedQueuesOneRequest();
    var s := Submitted().value;
    var id := s.operations[0].dataRequest.value;
    assert s.dispatcher.requests[id].volleyRequest == Some(0);
  }

  /** A POST that carries a JSON body cannot be built without one. */
  lemma {:induction false} PostWithoutBodyIsRejected(path: string)
    ensures
      var r := DataRequest.CreateJsonDataRequest(
        Some(DataRequestMethod.JsonWithBody(DataRequestMethod.POST)), Some(path), Some(map[]), Some(map[]), None);
      r.Violated? && r.violation.kind == RequireKind
  {
  }

  /** Executing before `Core.init` is a violation: the operation cannot
      read the base URL. */
  lemma {:induction false} ExecuteBeforeInitIsRejected()
    ensures
      var s := NewOperation(Start, Some(QuestionsType)).value;
      Execute(s.0, s.1, Caller, Questions).Violated?
  {
  }

  /** The facts `SubmittedQueuesOneRequest` establishes, as a predicate the
      later scenarios can guard on. */
  ghost predicate SubmittedQueuesOneRequestHolds() {
    && Submitted().Ok?
    && |Submitted().value.operations| == 1
    && |Submitted().value.dispatcher.queue| == 1
    && Pending(Submitted().value, 0, 0)
    && Submitted().value.notifications == []
  }
}

=== FILE: service_operation.dfy ===
/** The public unit of work (`ServiceOperation`): it builds a request for its
    endpoint, submits it through the dispatcher, and reports the decoded
    result or the failure to the caller's listener, unless it was cancelled
    in the meantime.

    An operation is Idle (no request in flight) or Executing (a request in
    flight); a `cancelled` flag sits beside that. The whole system is one
    value (`System`) and every call or callback is a function from one
    system to the next. A contract violation, which the source throws and
    never catches, ends the run: the event returns `Violated`.
 */
module ServiceOperation {
  import opened Wrappers
  import opened DesignByContract
  import opened Json
  import opened DataTransaction
  import Core
  import Errors
  import DataRequest
  import VolleyRequest
  import JsonRequest
  import DataTransceiver

  // ---------------------------------------------------------------------
  // Result types and decoding

  /** A `Class` object: `Void`, or a class with the names of its
      supertypes. */
  datatype TypeTag = VoidType | ClassType(name: string, supertypes: set<string>)

  /** `declared.isAssignableFrom(actual)`. `Void` is final, so only `Void`
      is assignable to it. */
  predicate IsAssignableFrom(declared: TypeTag, actual: TypeTag) {
    match declared
    case VoidType => actual.VoidType?
    case ClassType(name, _) => actual.ClassType? && (actual.name == name || name in actual.supertypes)
  }

  /** `Class.toString()`. */
  function ClassText(t: TypeTag): string {
    match t
    case VoidType => "class java.lang.Void"
    case ClassType(name, _) => "class " + name
  }

  /** A decoded domain object, by its `toString`. */
  datatype Value = Value(text: string)

  /** What the JSON decoder produced: an object and its runtime class. */
  datatype Decoded = Decoded(value: Value, runtimeType: TypeTag)

  /** The reflection-based decoder: an object for a JSON text and a target
      class, or `None` where it returns `null`. */
  type Decoder = (JsonObject, TypeTag) -> Option<Decoded>

  /** `getResultFromJson`: the decoded object must be non-null (a require
      violation otherwise) and of the declared type (an ensure violation
      otherwise). */
  function GetResultFromJson(json: JsonObject, resultType: TypeTag, decode: Decoder): (r: Result<Value>)
    ensures r.Ok? <==> decode(json, resultType).Some? && IsAssignableFrom(resultType, decode(json, resultType).value.runtimeType)
    ensures r.Ok? ==> r.value == decode(json, resultType).value.value
    ensures r.Violated? && decode(json, resultType).None? ==> r.violation.kind == RequireKind
    ensures r.Violated? && decode(json, resultType).Some? ==> r.violation.kind == EnsureKind
  {
    // requireNonNull(jsonObject, "responseJson") holds: the caller checked it
    var obj := decode(json, resultType);
    var _ :- EnsureNonNull(obj, NoArgs);
    var _ :- Ensure(IsAssignableFrom(resultType, obj.value.runtimeType),
                    "Expected type: " + ClassText(resultType) + " actual type: " + obj.value.value.text);
    Ok(obj.value.value)
  }

  // ---------------------------------------------------------------------
  // The operation and its subclass hooks

  datatype Operation = Operation(resultType: TypeTag, dataRequest: Option<nat>, cancelled: bool)

  predicate Idle(o: Operation) {
    o.dataRequest.None?
  }

  /** `isVoidResult`. `Void` is final, so this holds exactly for an
      operation declared with result type `Void`. */
  function IsVoidResult(o: Operation): (b: bool)
    ensures b <==> o.resultType == VoidType
  {
    IsAssignableFrom(VoidType, o.resultType)
  }

  /** What a concrete operation supplies: its endpoint, possibly an
      overridden `getBaseUrl` (`Some(url)`, where `url` may be `null`), and
      its `getDataRequest`, which may return `null` or throw a violation. */
  datatype Subclass = Subclass(
    endPoint: Option<string>,
    baseUrlOverride: Option<Option<string>>,
    getDataRequest: (string, DataRequest.StringMap, DataRequest.StringMap) -> Result<Option<DataRequest.DataRequest>>)

  const BaseUrlMissing := "Looks like a BaseURL is not defined in Core, either provide a base URL in core or override getBaseUrl() in your operation"

  /** `getBaseUrl`: the override if there is one; otherwise `Core`'s URL,
      and a violation when that is `null` or empty. */
  function GetBaseUrl(core: Core.CoreState, sub: Subclass): (r: Result<Option<string>>)
    ensures sub.baseUrlOverride.Some? ==> r == Ok(sub.baseUrlOverride.value)
    ensures sub.baseUrlOverride.None? ==>
              (r.Violated? <==> core.Uninitialised? || IsEmptyText(core.instance.baseUrl))
    ensures sub.baseUrlOverride.None? && r.Ok? ==> r.value == core.instance.baseUrl
    ensures r.Violated? ==> r.violation.kind == RequireKind
  {
    match sub.baseUrlOverride
    case Some(url) => Ok(url)
    case None =>
      var url :- Core.GetBaseUrl(core);
      if IsEmptyText(url) then
        RequireShouldOverRide(Arg(BaseUrlMissing)).PropagateFailure()
      else
        Ok(url)
  }

  /** The base URL in effect for an operation, if one can be read at all. */
  function BaseUrlInEffect(core: Core.CoreState, sub: Subclass): Option<string> {
    if sub.baseUrlOverride.Some? then sub.baseUrlOverride.value
    else if core.Initialised? then core.instance.baseUrl
    else None
  }

  /** `generateURl`: the base URL followed by the endpoint. An empty or
      missing base URL or endpoint is a violation. */
  function GenerateUrl(core: Core.CoreState, sub: Subclass): (r: Result<string>)
    ensures r.Ok? <==> !IsEmptyText(BaseUrlInEffect(core, sub)) && !IsEmptyText(sub.endPoint)
    ensures r.Ok? ==> r.value == BaseUrlInEffect(core, sub).value + sub.endPoint.value
    ensures r.Violated? ==> r.violation.kind == RequireKind
  {
    var baseUrl :- GetBaseUrl(core, sub);
    var _ :- EnsureNonEmptyString(baseUrl, Arg("baseUrl"));
    var _ :- EnsureNonEmptyString(sub.endPoint, Arg("Url endPoint"));
    Ok(baseUrl.value + sub.endPoint.value)
  }

  // ---------------------------------------------------------------------
  // The system

  /** What reached a listener: an `OperationListener`'s `onSuccess` or
      `onFailure`, or a call on some other client's `DataListener`. */
  datatype Notification =
    | Succeeded(listener: nat, result: Option<Value>)
    | Failed(listener: nat, failure: Option<Errors.Error>)
    | Delivered(call: Upcall)

  datatype System = System(
    core: Core.CoreState,
    dispatcher: DataTransceiver.Dispatcher,
    operations: seq<Operation>,
    notifications: seq<Notification>)

  const Start := System(Core.Uninitialised, DataTransceiver.Empty, [], [])

  /** Transport request `h` is outstanding and reports to operation `op`. */
  predicate Pending(s: System, op: int, h: int) {
    && 0 <= h < |s.dispatcher.queue|
    && !s.dispatcher.queue[h].finished
    && s.dispatcher.queue[h].listener.OperationCallbacks?
    && s.dispatcher.queue[h].listener.operation == op
  }

  /** Every transport request is the one its request points back to, so no
      request was queued twice. */
  ghost predicate QueuedOnce(d: DataTransceiver.Dispatcher) {
    forall h :: 0 <= h < |d.queue| ==>
      d.queue[h].transaction.request < |d.requests|
      && d.requests[d.queue[h].transaction.request].volleyRequest == Some(h)
  }

  /** An executing operation's request exists. */
  ghost predicate RequestsKnown(s: System) {
    forall op :: 0 <= op < |s.operations| && s.operations[op].dataRequest.Some? ==>
      s.operations[op].dataRequest.value < |s.dispatcher.requests|
  }

  /** An outstanding transport request belongs to an operation that is
      executing exactly its request. */
  ghost predicate PendingIsInFlight(s: System) {
    forall h :: 0 <= h < |s.dispatcher.queue| && !s.dispatcher.queue[h].finished
                && s.dispatcher.queue[h].listener.OperationCallbacks? ==>
      var op := s.dispatcher.queue[h].listener.operation;
      op < |s.operations| && s.operations[op].dataRequest == Some(s.dispatcher.queue[h].transaction.request)
  }

  /** The system invariant. */
  ghost predicate Inv(s: System) {
    && DataTransceiver.Valid(s.dispatcher)
    && QueuedOnce(s.dispatcher)
    && RequestsKnown(s)
    && PendingIsInFlight(s)
  }

  lemma StartIsValid()
    ensures Inv(Start)
  {
  }

  /** At most one transport request is outstanding for an operation. */
  lemma {:induction false} AtMostOnePending(s: System, op: int, h1: int, h2: int)
    requires Inv(s)
    requires Pending(s, op, h1) && Pending(s, op, h2)
    ensures h1 == h2
  {
    var d := s.dispatcher;
    var id := s.operations[op].dataRequest.value;
    assert d.queue[h1].transaction.request == id;
    assert d.queue[h2].transaction.request == id;
    assert Some(h1) == d.requests[id].volleyRequest == Some(h2);
  }

  /** An idle operation has nothing outstanding, so no callback can reach
      it. */
  lemma {:induction false} IdleHasNothingPending(s: System, op: int, h: int)
    requires Inv(s) && 0 <= op < |s.operations| && Idle(s.operations[op])
    ensures !Pending(s, op, h)
  {
  }

  /** The invariant reads only the transactions, listeners and `finished`
      flags of the queue, the requests' handles and the operations'
      in-flight requests; a step that keeps those (and adds only Idle
      operations) keeps it. */
  lemma {:induction false} InvFrame(s: System, s': System)
    requires |s'.dispatcher.queue| == |s.dispatcher.queue| && |s'.dispatcher.requests| == |s.dispatcher.requests|
    requires forall h :: 0 <= h < |s.dispatcher.queue| ==>
               && s'.dispatcher.queue[h].transaction == s.dispatcher.queue[h].transaction
               && s'.dispatcher.queue[h].listener == s.dispatcher.queue[h].listener
               && s'.dispatcher.queue[h].finished == s.dispatcher.queue[h].finished
    requires forall j :: 0 <= j < |s.dispatcher.requests| ==>
               s'.dispatcher.requests[j].volleyRequest == s.dispatcher.requests[j].volleyRequest
    requires |s.operations| <= |s'.operations|
    requires forall op :: 0 <= op < |s.operations| ==>
               s'.operations[op].dataRequest == s.operations[op].dataRequest
    requires forall op :: |s.operations| <= op < |s'.operations| ==> Idle(s'.operations[op])
    ensures Inv(s) ==> Inv(s')
  {
    if !Inv(s) {
      return;
    }
    var d, d' := s.dispatcher, s'.dispatcher;
    assert DataTransceiver.Valid(d') by {
      forall id | 0 <= id < |d'.requests| && d'.requests[id].volleyRequest.Some?
        ensures d'.requests[id].volleyRequest.value < |d'.queue|
        ensures d'.queue[d'.requests[id].volleyRequest.value].transaction.request == id
      {
        assert d.requests[id].volleyRequest == d'.requests[id].volleyRequest;
      }
    }
    assert RequestsKnown(s') by {
      forall op | 0 <= op < |s'.operations| && s'.operations[op].dataRequest.Some?
        ensures s'.operations[op].dataRequest.value < |d'.requests|
      {
      }
    }
  }

  // ---------------------------------------------------------------------
  // Configuration and construction

  /** `Core.init` on the system. */
  function InitCore(s: System, context: Option<Core.Context>, baseUrl: Option<string>): (r: Result<System>)
    ensures r.Violated? <==> context.None?
    ensures r.Ok? ==> r.value == s.(core := Core.Init(s.core, context, baseUrl).value)
    ensures r.Ok? && Inv(s) ==> Inv(r.value)
  {
    var core :- Core.Init(s.core, context, baseUrl);
    Ok(s.(core := core))
  }

  /** The constructor: a `null` result type is a violation. A new
      operation is Idle and not cancelled. */
  function NewOperation(s: System, resultType: Option<TypeTag>): (r: Result<(System, nat)>)
    ensures r.Violated? <==> resultType.None?
    ensures r.Violated? ==> r.violation.kind == RequireKind
    ensures r.Ok? ==> r.value.1 == |s.operations|
                      && r.value.0 == s.(operations := s.operations + [Operation(resultType.value, None, false)])
    ensures r.Ok? && Inv(s) ==> Inv(r.value.0)
  {
    var _ :- RequireNonNull(resultType, NoArgs);
    var s' := s.(operations := s.operations + [Operation(resultType.value, None, false)]);
    InvFrame(s, s');
    Ok((s', |s.operations|))
  }

  // ---------------------------------------------------------------------
  // execute

  /** The request `execute` stores for operation `op`: the subclass is
      asked for the base URL in effect followed by the endpoint, with two
      empty maps, and what it returns is stored as a new object. */
  function BuiltRequest(s: System, sub: Subclass): (r: Option<DataRequest.DataRequest>)
    ensures r.Some? <==>
              && !IsEmptyText(BaseUrlInEffect(s.core, sub))
              && !IsEmptyText(sub.endPoint)
              && sub.getDataRequest(BaseUrlInEffect(s.core, sub).value + sub.endPoint.value, map[], map[]).Ok?
              && sub.getDataRequest(BaseUrlInEffect(s.core, sub).value + sub.endPoint.value, map[], map[]).value.Some?
    ensures r.Some? ==>
              && r.value.volleyRequest.None?
              && r.value == sub.getDataRequest(BaseUrlInEffect(s.core, sub).value + sub.endPoint.value, map[], map[])
                              .value.value.(volleyRequest := None)
  {
    var path := GenerateUrl(s.core, sub);
    if path.Violated? then None
    else
      var built := sub.getDataRequest(path.value, map[], map[]);
      if built.Violated? || built.value.None? then None
      else Some(built.value.value.(volleyRequest := None))
  }

  /** `execute(listener)`. While a request is in flight it does nothing at
      all. From Idle it resets `cancelled`, stores the subclass's request
      and hands exactly that request to the dispatcher. */
  function Execute(s: System, op: nat, listener: nat, sub: Subclass): (r: Result<System>)
    requires op < |s.operations|
    ensures !Idle(s.operations[op]) ==> r == Ok(s)
    ensures Idle(s.operations[op]) ==>
              (r.Ok? <==> BuiltRequest(s, sub).Some? && s.core.Initialised?)
    ensures Idle(s.operations[op]) && r.Ok? ==>
              var id := |s.dispatcher.requests|;
              var built := BuiltRequest(s, sub).value;
              && r.value.core == s.core
              && r.value.notifications == s.notifications
              && r.value.operations == s.operations[op := s.operations[op].(dataRequest := Some(id), cancelled := false)]
              && (DataRequest.IsCancelled(built) ==>
                    r.value.dispatcher == s.dispatcher.(requests := s.dispatcher.requests + [built]))
              && (!DataRequest.IsCancelled(built) ==>
                    && r.value.dispatcher.requests == s.dispatcher.requests + [built.(volleyRequest := Some(|s.dispatcher.queue|))]
                    && r.value.dispatcher.queue == s.dispatcher.queue
                         + [VolleyRequest.New(DataTransaction(id, EmptyResponse), built, OperationCallbacks(op, listener))])
    ensures r.Ok? && Inv(s) ==> Inv(r.value)
  {
    var operation := s.operations[op];
    if !Idle(operation) then
      Ok(s)
    else
      var operation := operation.(cancelled := false);
      var path :- GenerateUrl(s.core, sub);
      var built :- sub.getDataRequest(path, map[], map[]);
      var _ :- EnsureNonNull(built, Arg("dataRequest"));
      var id := |s.dispatcher.requests|;
      var stored := s.dispatcher.(requests := s.dispatcher.requests + [built.value.(volleyRequest := None)]);
      var _ :- DataTransceiver.GetsInstance(s.core);
      var queued := DataTransceiver.QueueJsonRequest(stored, Some(id), Some(OperationCallbacks(op, listener)));
      assert queued.Ok?;
      var s' := s.(dispatcher := queued.value, operations := s.operations[op := operation.(dataRequest := Some(id))]);
      ExecutePreservesInv(s, op, listener, built.value.(volleyRequest := None), s');
      Ok(s')
  }

  /** The bookkeeping behind `Execute`'s last postcondition. */
  lemma {:induction false} ExecutePreservesInv(s: System, op: nat, listener: nat, built: DataRequest.DataRequest, s': System)
    requires op < |s.operations| && Idle(s.operations[op]) && built.volleyRequest.None?
    requires s'.core == s.core
    requires s'.operations == s.operations[op := s.operations[op].(dataRequest := Some(|s.dispatcher.requests|), cancelled := false)]
    requires DataRequest.IsCancelled(built) ==>
               s'.dispatcher == s.dispatcher.(requests := s.dispatcher.requests + [built])
    requires !DataRequest.IsCancelled(built) ==>
               && s'.dispatcher.requests == s.dispatcher.requests + [built.(volleyRequest := Some(|s.dispatcher.queue|))]
               && s'.dispatcher.queue == s.dispatcher.queue
                    + [VolleyRequest.New(DataTransaction(|s.dispatcher.requests|, EmptyResponse), built, OperationCallbacks(op, listener))]
    ensures Inv(s) ==> Inv(s')
  {
    if Inv(s) {
      var d, d' := s.dispatcher, s'.dispatcher;
      var id := |d.requests|;
      assert forall j :: 0 <= j < id ==> d'.requests[j] == d.requests[j];
      assert forall h :: 0 <= h < |d.queue| ==> d'.queue[h] == d.queue[h];
      assert DataTransceiver.Valid(d') by {
        forall j | 0 <= j < |d'.requests| && d'.requests[j].volleyRequest.Some?
          ensures d'.requests[j].volleyRequest.value < |d'.queue|
          ensures d'.queue[d'.requests[j].volleyRequest.value].transaction.request == j
        {
        }
      }
      assert PendingIsInFlight(s') by {
        forall h | 0 <= h < |d'.queue| && !d'.queue[h].finished && d'.queue[h].listener.OperationCallbacks?
          ensures d'.queue[h].listener.operation < |s'.operations|
          ensures s'.operations[d'.queue[h].listener.operation].dataRequest == Some(d'.queue[h].transaction.request)
        {
          if h < |d.queue| {
            var o := d.queue[h].listener.operation;
            assert Pending(s, o, h);
            if o == op {
              IdleHasNothingPending(s, op, h);
            }
          }
        }
      }
    }
  }

  /** A request the subclass hands back already cancelled is stored but
      never queued. The operation is left Executing with nothing
      outstanding, so no callback can make it Idle again and every later
      `execute` does nothing. */
  lemma {:induction false} CancelledRequestIsNeverQueued(
    s: System, op: nat, listener: nat, sub: Subclass, h: int, laterListener: nat, laterSub: Subclass)
    requires Inv(s) && op < |s.operations| && Idle(s.operations[op])
    requires BuiltRequest(s, sub).Some? && DataRequest.IsCancelled(BuiltRequest(s, sub).value)
    requires Execute(s, op, listener, sub).Ok?
    ensures Execute(s, op, listener, sub).value.dispatcher.queue == s.dispatcher.queue
    ensures !Idle(Execute(s, op, listener, sub).value.operations[op])
    ensures !Pending(Execute(s, op, listener, sub).value, op, h)
    ensures Execute(Execute(s, op, listener, sub).value, op, laterListener, laterSub) == Execute(s, op, listener, sub)
  {
    IdleHasNothingPending(s, op, h);
  }

  // ---------------------------------------------------------------------
  // cancel

  /** `cancel()`: succeeds exactly when the operation is executing and not
      yet cancelled; it then sets `cancelled` and cancels the in-flight
      request. Otherwise nothing changes. */
  function Cancel(s: System, op: nat): (r: (System, bool))
    requires Inv(s) && op < |s.operations|
    ensures r.1 <==> !s.operations[op].cancelled && !Idle(s.operations[op])
    ensures !r.1 ==> r.0 == s
    ensures r.1 ==>
              && r.0.operations == s.operations[op := s.operations[op].(cancelled := true)]
              && r.0.dispatcher == DataTransceiver.CancelRequest(s.dispatcher, s.operations[op].dataRequest.value)
              && r.0.core == s.core
              && r.0.notifications == s.notifications
    ensures Inv(r.0)
  {
    var operation := s.operations[op];
    if !operation.cancelled && operation.dataRequest.Some? then
      var s' := s.(operations := s.operations[op := operation.(cancelled := true)],
                   dispatcher := DataTransceiver.CancelRequest(s.dispatcher, operation.dataRequest.value));
      CancelKeepsInv(s, op, s');
      (s', true)
    else
      (s, false)
  }

  /** Cancelling touches only flags the invariant does not read. */
  lemma {:induction false} CancelKeepsInv(s: System, op: nat, s': System)
    requires Inv(s) && op < |s.operations| && s.operations[op].dataRequest.Some?
    requires s' == s.(operations := s.operations[op := s.operations[op].(cancelled := true)],
                      dispatcher := DataTransceiver.CancelRequest(s.dispatcher, s.operations[op].dataRequest.value))
    ensures Inv(s')
  {
    var d, d' := s.dispatcher, s'.dispatcher;
    var id := s.operations[op].dataRequest.value;
    assert forall j :: 0 <= j < |d.requests| ==> d'.requests[j].volleyRequest == d.requests[j].volleyRequest by {
      forall j | 0 <= j < |d.requests|
        ensures d'.requests[j].volleyRequest == d.requests[j].volleyRequest
      {
        if j == id {
          assert d'.requests[j].(cancelled := d.requests[j].cancelled) == d.requests[j];
        }
      }
    }
    InvFrame(s, s');
  }

  /** A second `cancel` in a row returns false. */
  lemma {:induction false} SecondCancelFails(s: System, op: nat)
    requires Inv(s) && op < |s.operations|
    ensures !Cancel(Cancel(s, op).0, op).1
  {
    var (s1, cancelled) := Cancel(s, op);
    if cancelled {
      assert s1.operations[op].cancelled;
    } else {
      assert s1 == s;
    }
  }

  // ---------------------------------------------------------------------
  // The operation's own listener

  /** Both callbacks begin here: the in-flight request is cleared before
      anything else, so the operation is Idle whatever follows. */
  function ClearInFlight(s: System, op: nat): (s': System)
    requires op < |s.operations|
    ensures |s'.operations| == |s.operations| && Idle(s'.operations[op])
    ensures s'.operations[op].resultType == s.operations[op].resultType
    ensures s'.operations[op].cancelled == s.operations[op].cancelled
    ensures forall i :: 0 <= i < |s.operations| && i != op ==> s'.operations[i] == s.operations[i]
    ensures s'.core == s.core && s'.dispatcher == s.dispatcher && s'.notifications == s.notifications
  {
    s.(operations := s.operations[op := s.operations[op].(dataRequest := None)])
  }

  /** The operation listener's `onSuccess`: nothing is reported if the
      operation was cancelled; a `Void` operation reports a `null` result
      without decoding; any other needs the JSON payload and reports the
      decoded object. */
  function OnSuccess(s: System, op: nat, listener: nat, transaction: DataTransaction, decode: Decoder): (r: Result<System>)
    requires op < |s.operations|
    ensures s.operations[op].cancelled ==> r == Ok(ClearInFlight(s, op))
    ensures !s.operations[op].cancelled && IsVoidResult(s.operations[op]) ==>
              r == Ok(ClearInFlight(s, op).(notifications := s.notifications + [Succeeded(listener, None)]))
    ensures !s.operations[op].cancelled && !IsVoidResult(s.operations[op]) ==>
              var json := transaction.response.json;
              var resultType := s.operations[op].resultType;
              && (r.Ok? <==> json.Some? && GetResultFromJson(json.value, resultType, decode).Ok?)
              && (r.Ok? ==> r.value == ClearInFlight(s, op).(notifications := s.notifications
                                          + [Succeeded(listener, Some(decode(json.value, resultType).value.value))]))
  {
    var s' := ClearInFlight(s, op);
    var operation := s.operations[op];
    if operation.cancelled then
      Ok(s')
    else
      // requireNonNull(dataTransaction) holds: the transaction is a value
      if IsVoidResult(operation) then
        Ok(s'.(notifications := s.notifications + [Succeeded(listener, None)]))
      else
        var _ :- RequireNonNull(transaction.response.json, Arg("jsonResponse"));
        var result :- GetResultFromJson(transaction.response.json.value, operation.resultType, decode);
        Ok(s'.(notifications := s.notifications + [Succeeded(listener, Some(result))]))
  }

  /** The operation listener's `onFailure`: nothing is reported if the
      operation was cancelled; otherwise the transaction's failure message
      is passed on unchanged. */
  function OnFailure(s: System, op: nat, listener: nat, transaction: DataTransaction): (s': System)
    requires op < |s.operations|
    ensures s.operations[op].cancelled ==> s' == ClearInFlight(s, op)
    ensures !s.operations[op].cancelled ==>
              s' == ClearInFlight(s, op).(notifications := s.notifications
                      + [Failed(listener, transaction.response.failureMessage)])
  {
    var s' := ClearInFlight(s, op);
    if s.operations[op].cancelled then s'
    else
      // requireNonNull(dataTransaction) holds: the transaction is a value
      s'.(notifications := s.notifications + [Failed(listener, transaction.response.failureMessage)])
  }

  /** Hands a dispatcher call to the listener it is for. Only a success
      that has to be decoded can fail; the operation called back is Idle
      afterwards, nothing else but the notifications changes, and at most
      one notification is added. */
  function Route(s: System, call: Upcall, decode: Decoder): (r: Result<System>)
    requires call.listener.OperationCallbacks? ==> call.listener.operation < |s.operations|
    ensures r.Violated? <==>
              && call.listener.OperationCallbacks?
              && call.outcome == Success
              && !s.operations[call.listener.operation].cancelled
              && !IsVoidResult(s.operations[call.listener.operation])
              && (|| call.transaction.response.json.None?
                  || GetResultFromJson(call.transaction.response.json.value,
                                       s.operations[call.listener.operation].resultType, decode).Violated?)
    ensures r.Ok? ==> r.value.core == s.core && r.value.dispatcher == s.dispatcher
    ensures r.Ok? ==> |s.notifications| <= |r.value.notifications| <= |s.notifications| + 1
                      && r.value.notifications[..|s.notifications|] == s.notifications
    ensures r.Ok? && call.listener.OperationCallbacks? ==>
              r.value.operations == s.operations[call.listener.operation := s.operations[call.listener.operation].(dataRequest := None)]
    ensures r.Ok? && call.listener.ClientListener? ==>
              r.value.operations == s.operations && r.value.notifications == s.notifications + [Delivered(call)]
  {
    match call.listener
    case OperationCallbacks(op, listener) =>
      if call.outcome == Success then OnSuccess(s, op, listener, call.transaction, decode)
      else Ok(OnFailure(s, op, listener, call.transaction))
    case ClientListener(_) =>
      Ok(s.(notifications := s.notifications + [Delivered(call)]))
  }

  // ---------------------------------------------------------------------
  // Transport events

  /** What one transport report does to the operation it is for: the
      operation is Idle afterwards; if it was cancelled nothing was
      reported, and otherwise exactly one notification, for its listener. */
  predicate ReportedOnce(s: System, h: nat, s': System)
    requires h < |s.dispatcher.queue|
    requires s.dispatcher.queue[h].listener.OperationCallbacks?
    requires s.dispatcher.queue[h].listener.operation < |s.operations|
  {
    var callbacks := s.dispatcher.queue[h].listener;
    var op := callbacks.operation;
    var n := |s.notifications|;
    && s'.operations == s.operations[op := s.operations[op].(dataRequest := None)]
    && s'.core == s.core
    && (s.operations[op].cancelled ==> s'.notifications == s.notifications)
    && (!s.operations[op].cancelled ==>
          && |s'.notifications| == n + 1
          && s'.notifications[..n] == s.notifications
          && !s'.notifications[n].Delivered?
          && s'.notifications[n].listener == callbacks.operationListener)
  }

  /** A report is the last an operation hears of its `execute`: once it is
      Idle again nothing is outstanding for it, so no second callback can
      reach its listener. */
  lemma {:induction false} NoCallbackAfterReport(s: System, h: nat, s': System, later: int)
    requires h < |s.dispatcher.queue|
    requires s.dispatcher.queue[h].listener.OperationCallbacks?
    requires s.dispatcher.queue[h].listener.operation < |s.operations|
    requires Inv(s') && ReportedOnce(s, h, s')
    ensures !Pending(s', s.dispatcher.queue[h].listener.operation, later)
  {
    IdleHasNothingPending(s', s.dispatcher.queue[h].listener.operation, later);
  }

  /** What one transport event does to the dispatcher: entry `h` is
      finished and keeps its request, listener and cancel flag; no other
      entry and no request changes, and neither does `Core`. */
  predicate OnlyEntryFinished(s: System, h: nat, s': System)
    requires h < |s.dispatcher.queue|
  {
    && s'.core == s.core
    && s'.dispatcher.requests == s.dispatcher.requests
    && |s'.dispatcher.queue| == |s.dispatcher.queue|
    && s'.dispatcher.queue == s.dispatcher.queue[h := s'.dispatcher.queue[h]]
    && s'.dispatcher.queue[h] == s.dispatcher.queue[h].(transaction := s'.dispatcher.queue[h].transaction, finished := true)
    && s'.dispatcher.queue[h].transaction.request == s.dispatcher.queue[h].transaction.request
  }

  /** The transport delivers response text for transport request `h`. The
      operation it is for reports a success exactly when the text parses:
      nothing for a `Void` operation, and otherwise the decoded object.
      Text that does not parse is reported as the classified failure. The
      event fails only when that failure cannot be built, or when a parsed
      answer cannot be decoded for an operation still waiting for it. */
  function TransportResponds(s: System, h: nat, data: string, parse: Parser, decode: Decoder): (r: Result<System>)
    requires Inv(s) && h < |s.dispatcher.queue| && !s.dispatcher.queue[h].finished
    ensures r.Violated? <==>
              || (&& parse(data).None?
                  && VolleyRequest.FailureFor(s.core, JsonRequest.ParseNetworkResponse(data, parse).error).Violated?)
              || (&& parse(data).Some?
                  && s.dispatcher.queue[h].listener.OperationCallbacks?
                  && var operation := s.operations[s.dispatcher.queue[h].listener.operation];
                     && !operation.cancelled
                     && !IsVoidResult(operation)
                     && GetResultFromJson(parse(data).value, operation.resultType, decode).Violated?)
    ensures r.Ok? ==> Inv(r.value)
    ensures r.Ok? ==> OnlyEntryFinished(s, h, r.value)
    ensures r.Ok? && parse(data).Some? ==> r.value.dispatcher.queue[h].transaction.response.json == parse(data)
    ensures r.Ok? && parse(data).None? ==>
              r.value.dispatcher.queue[h].transaction.response.failureMessage
                == Some(VolleyRequest.FailureFor(s.core, JsonRequest.ParseNetworkResponse(data, parse).error).value)
    ensures r.Ok? && s.dispatcher.queue[h].listener.OperationCallbacks? ==> ReportedOnce(s, h, r.value)
    ensures r.Ok? && s.dispatcher.queue[h].listener.OperationCallbacks? ==>
              var callbacks := s.dispatcher.queue[h].listener;
              var operation := s.operations[callbacks.operation];
              !operation.cancelled ==>
                r.value.notifications[|s.notifications|]
                  == if parse(data).None? then
                       Failed(callbacks.operationListener,
                              Some(VolleyRequest.FailureFor(s.core, JsonRequest.ParseNetworkResponse(data, parse).error).value))
                     else if IsVoidResult(operation) then
                       Succeeded(callbacks.operationListener, None)
                     else
                       Succeeded(callbacks.operationListener,
                                 Some(GetResultFromJson(parse(data).value, operation.resultType, decode).value))
    ensures r.Ok? && s.dispatcher.queue[h].listener.ClientListener? ==>
              && r.value.operations == s.operations
              && |r.value.notifications| == |s.notifications| + 1
              && r.value.notifications[..|s.notifications|] == s.notifications
              && r.value.notifications[|s.notifications|].Delivered?
              && r.value.notifications[|s.notifications|].call.listener == s.dispatcher.queue[h].listener
  {
    var reported :- DataTransceiver.Respond(s.core, s.dispatcher, h, data, parse);
    var (d', call) := reported;
    var s1 := s.(dispatcher := d');
    ReportPreservesInv(s, h, s1, call);
    var r := Route(s1, call, decode);
    RouteReportsOnce(s, h, s1, call, decode, r);
    r
  }

  /** The transport reports an error for transport request `h`. The
      operation it is for reports the classified failure. */
  function TransportFails(s: System, h: nat, error: Errors.Exception, decode: Decoder): (r: Result<System>)
    requires Inv(s) && h < |s.dispatcher.queue| && !s.dispatcher.queue[h].finished
    ensures r.Violated? <==> VolleyRequest.FailureFor(s.core, error).Violated?
    ensures r.Ok? ==> Inv(r.value)
    ensures r.Ok? ==> OnlyEntryFinished(s, h, r.value)
    ensures r.Ok? ==>
              r.value.dispatcher.queue[h].transaction.response.failureMessage
                == Some(VolleyRequest.FailureFor(s.core, error).value)
    ensures r.Ok? && s.dispatcher.queue[h].listener.OperationCallbacks? ==> ReportedOnce(s, h, r.value)
    ensures r.Ok? && s.dispatcher.queue[h].listener.OperationCallbacks? ==>
              var callbacks := s.dispatcher.queue[h].listener;
              !s.operations[callbacks.operation].cancelled ==>
                r.value.notifications[|s.notifications|]
                  == Failed(callbacks.operationListener, Some(VolleyRequest.FailureFor(s.core, error).value))
    ensures r.Ok? && s.dispatcher.queue[h].listener.ClientListener? ==>
              && r.value.operations == s.operations
              && |r.value.notifications| == |s.notifications| + 1
              && r.value.notifications[..|s.notifications|] == s.notifications
              && r.value.notifications[|s.notifications|].Delivered?
              && r.value.notifications[|s.notifications|].call.listener == s.dispatcher.queue[h].listener
  {
    var reported :- DataTransceiver.Fail(s.core, s.dispatcher, h, error);
    var (d', call) := reported;
    var s1 := s.(dispatcher := d');
    ReportPreservesInv(s, h, s1, call);
    var r := Route(s1, call, decode);
    RouteReportsOnce(s, h, s1, call, decode, r);
    r
  }

  /** After the dispatcher's part of a report, the invariant holds with
      the reported operation made Idle: the report was the operation's only
      outstanding transport request. */
  lemma {:induction false} ReportPreservesInv(s: System, h: nat, s1: System, call: Upcall)
    requires Inv(s) && h < |s.dispatcher.queue| && !s.dispatcher.queue[h].finished
    requires s1.core == s.core && s1.operations == s.operations && s1.notifications == s.notifications
    requires DataTransceiver.Valid(s1.dispatcher)
    requires DataTransceiver.Reported(s.dispatcher, h, s1.dispatcher, call)
    ensures call.listener.OperationCallbacks? ==> call.listener.operation < |s1.operations|
    ensures call.listener.OperationCallbacks? ==> Inv(ClearInFlight(s1, call.listener.operation))
    ensures call.listener.ClientListener? ==> Inv(s1)
  {
    var d, d1 := s.dispatcher, s1.dispatcher;
    assert forall j :: 0 <= j < |d1.queue| && j != h ==> d1.queue[j] == d.queue[j];
    assert QueuedOnce(d1) by {
      forall j | 0 <= j < |d1.queue|
        ensures d1.queue[j].transaction.request < |d1.requests|
        ensures d1.requests[d1.queue[j].transaction.request].volleyRequest == Some(j)
      {
      }
    }
    if call.listener.OperationCallbacks? {
      var op := call.listener.operation;
      assert Pending(s, op, h);
      var s2 := ClearInFlight(s1, op);
      assert PendingIsInFlight(s2) by {
        forall j | 0 <= j < |d1.queue| && !d1.queue[j].finished && d1.queue[j].listener.OperationCallbacks?
          ensures d1.queue[j].listener.operation < |s2.operations|
          ensures s2.operations[d1.queue[j].listener.operation].dataRequest == Some(d1.queue[j].transaction.request)
        {
          var o := d1.queue[j].listener.operation;
          assert j != h;
          assert Pending(s, o, j);
          if o == op {
            AtMostOnePending(s, op, h, j);
          }
        }
      }
    } else {
      assert PendingIsInFlight(s1) by {
        forall j | 0 <= j < |d1.queue| && !d1.queue[j].finished && d1.queue[j].listener.OperationCallbacks?
          ensures d1.queue[j].listener.operation < |s1.operations|
          ensures s1.operations[d1.queue[j].listener.operation].dataRequest == Some(d1.queue[j].transaction.request)
        {
          assert j != h;
        }
      }
    }
  }

  /** Routing a report touches only the reported operation and appends at
      most one notification. */
  lemma {:induction false} RouteReportsOnce(s: System, h: nat, s1: System, call: Upcall, decode: Decoder, r: Result<System>)
    requires h < |s.dispatcher.queue|
    requires s1.core == s.core && s1.operations == s.operations && s1.notifications == s.notifications
    requires call.listener == s.dispatcher.queue[h].listener
    requires call.listener.OperationCallbacks? ==> call.listener.operation < |s1.operations|
    requires call.listener.OperationCallbacks? ==> Inv(ClearInFlight(s1, call.listener.operation))
    requires call.listener.ClientListener? ==> Inv(s1)
    requires r == Route(s1, call, decode)
    ensures r.Ok? ==> Inv(r.value)
    ensures r.Ok? && call.listener.OperationCallbacks? ==> ReportedOnce(s, h, r.value)
    ensures r.Ok? && call.listener.OperationCallbacks? && !s.operations[call.listener.operation].cancelled ==>
              && (r.value.notifications[|s.notifications|].Succeeded? <==> call.outcome == Success)
              && (call.outcome == Failure ==>
                    r.value.notifications[|s.notifications|]
                      == Failed(call.listener.operationListener, call.transaction.response.failureMessage))
    ensures r.Ok? && call.listener.ClientListener? ==>
              r.value.operations == s.operations && r.value.notifications == s.notifications + [Delivered(call)]
  {
    if r.Ok? {
      if call.listener.OperationCallbacks? {
        var s2 := ClearInFlight(s1, call.listener.operation);
        InvFrame(s2, r.value);
      } else {
        InvFrame(s1, r.value);
      }
    }
  }
}

=== FILE: volley_request.dfy ===
/** The transport request the dispatcher queues (`VolleyRequest`), and the
    error listener it installs, which classifies every transport error.

    The transport library itself is not part of this model. A queued
    request is a value recording what the library was given; the library's
    callbacks are events (see `DataTransceiver`).
 */
module VolleyRequest {
  import opened Wrappers
  import opened DesignByContract
  import opened DataTransaction
  import Errors
  import Core
  import DataRequest

  /** A queued transport request: the transaction it fills in, the listener
      it reports to, the method code and URL it was built with, whether it
      was cancelled, and whether the transport has already reported on it
      (the transport reports at most once per request). */
  datatype TransportRequest = TransportRequest(
    transaction: DataTransaction,
    listener: DataListener,
    methodCode: int,
    url: string,
    cancelled: bool,
    finished: bool)

  /** The constructor: method and URL come from the transaction's request. */
  function New(transaction: DataTransaction, request: DataRequest.DataRequest, listener: DataListener): (t: TransportRequest)
    ensures t.methodCode == DataRequest.GetMethod(request) && t.url == DataRequest.GetPath(request)
    ensures t.transaction == transaction && t.listener == listener
    ensures !t.cancelled && !t.finished
  {
    TransportRequest(transaction, listener, DataRequest.GetMethod(request), DataRequest.GetPath(request), false, false)
  }

  /** The error classification: a network error as the cause comes first,
      then a parse error as the error itself, and everything else is
      unknown. */
  function Classify(error: Errors.Exception): (code: Errors.Code)
    ensures code == Errors.NETWORK_ERROR <==> Errors.IsNetworkError(error.cause)
    ensures code == Errors.SERVICE_RESPONSE_ERROR <==>
              !Errors.IsNetworkError(error.cause) && error.cls == Errors.ParseErrorClass
    ensures code == Errors.UNKNOWN <==>
              !Errors.IsNetworkError(error.cause) && error.cls != Errors.ParseErrorClass
  {
    if Errors.IsNetworkError(error.cause) then Errors.NETWORK_ERROR
    else if error.cls == Errors.ParseErrorClass then Errors.SERVICE_RESPONSE_ERROR
    else Errors.UNKNOWN
  }

  /** The network check looks at the cause and wins over the error's own
      class, even when the error itself is a parse error. */
  lemma {:induction false} NetworkCauseWins(error: Errors.Exception)
    requires error.cls == Errors.ParseErrorClass
    requires Errors.IsNetworkError(error.cause)
    ensures Classify(error) == Errors.NETWORK_ERROR
  {
  }

  /** A network error without a network error as its cause is not
      classified as one: only the cause is consulted. The transport's
      no-connection error is such an error, with the socket's exception as
      its cause. */
  lemma {:induction false} OnlyTheCauseIsConsulted(message: Option<string>, cause: Option<Errors.Exception>)
    requires !Errors.IsNetworkError(cause)
    ensures Classify(Errors.Exception(Errors.NetworkErrorClass, message, cause)) == Errors.UNKNOWN
  {
  }

  /** The classification as evidently intended: a network error is
      recognised whether it is the error itself or its cause. */
  function ClassifyAsIntended(error: Errors.Exception): (code: Errors.Code)
    ensures code == Errors.NETWORK_ERROR <==>
              error.cls == Errors.NetworkErrorClass || Errors.IsNetworkError(error.cause)
    ensures code == Errors.SERVICE_RESPONSE_ERROR <==>
              !Errors.IsNetworkError(error.cause) && error.cls == Errors.ParseErrorClass
    ensures code == Errors.UNKNOWN <==>
              && !Errors.IsNetworkError(error.cause)
              && error.cls != Errors.NetworkErrorClass && error.cls != Errors.ParseErrorClass
  {
    if error.cls == Errors.NetworkErrorClass || Errors.IsNetworkError(error.cause) then Errors.NETWORK_ERROR
    else if error.cls == Errors.ParseErrorClass then Errors.SERVICE_RESPONSE_ERROR
    else Errors.UNKNOWN
  }

  /** The two classifications differ exactly on a network error whose cause
      is not one, which the source reports as unknown. */
  lemma {:induction false} IntendedDiffersOnlyOnNetworkErrors(error: Errors.Exception)
    ensures ClassifyAsIntended(error) != Classify(error) <==>
              error.cls == Errors.NetworkErrorClass && !Errors.IsNetworkError(error.cause)
    ensures ClassifyAsIntended(error) != Classify(error) ==>
              Classify(error) == Errors.UNKNOWN && ClassifyAsIntended(error) == Errors.NETWORK_ERROR
  {
  }

  /** The classified failure message for a transport error: its code is the
      name of the classification and its exception is the error itself. */
  function FailureFor(core: Core.CoreState, error: Errors.Exception): (r: Result<Errors.Error>)
    ensures r.Violated? <==>
              core.Uninitialised? || |Core.GetString(core.instance.applicationContext, Errors.MessageResource(Classify(error)))| == 0
    ensures r.Ok? ==> Errors.Valid(r.value)
                      && r.value.code == Errors.Name(Classify(error))
                      && r.value.exception == Some(error)
  {
    Errors.CreateErrorMessageWithCode(core, Some(Classify(error)), Some(error))
  }

  /** The error listener: store the classified failure on the transaction's
      response, then call the listener's `onFailure`, once per error. */
  function OnErrorResponse(core: Core.CoreState, t: TransportRequest, error: Errors.Exception): (r: Result<(TransportRequest, Upcall)>)
    ensures r.Violated? <==> FailureFor(core, error).Violated?
    ensures r.Ok? ==>
              var (t', call) := r.value;
              && t'.finished
              && t' == t.(transaction := t'.transaction, finished := true)
              && t'.transaction.request == t.transaction.request
              && t'.transaction.response == t.transaction.response.(failureMessage := Some(FailureFor(core, error).value))
              && call == Upcall(t.listener, Failure, t'.transaction)
  {
    var localError :- FailureFor(core, error);
    // ensureNonNull(localError) holds: localError is a value here
    var response := t.transaction.response.(failureMessage := Some(localError));
    var transaction := t.transaction.(response := response);
    Ok((t.(transaction := transaction, finished := true), Upcall(t.listener, Failure, transaction)))
  }

  /** Where the transport takes the request body from. */
  datatype BodySource = RequestBody(bytes: Option<string>) | TransportDefault

  /** `getBody`: the request's own body when its method has one, and the
      transport's default otherwise. */
  function GetBody(request: DataRequest.DataRequest): (b: BodySource)
    ensures b.RequestBody? <==> DataRequest.HasBody(request)
    ensures b.RequestBody? ==> b.bytes == DataRequest.GetBody(request)
  {
    if DataRequest.HasBody(request) then RequestBody(DataRequest.GetBody(request)) else TransportDefault
  }

  /** A request built by a factory with a body method always hands the
      transport a body. */
  lemma {:induction false} BodyMethodSendsItsBody(request: DataRequest.DataRequest)
    requires DataRequest.WellFormed(request)
    requires DataRequest.HasBody(request)
    ensures GetBody(request).RequestBody? && GetBody(request).bytes.Some?
  {
    assert request.body.Some?;
  }

  /** `getParams`: the request's own map, `null` included. */
  function GetParams(request: DataRequest.DataRequest): (r: Option<DataRequest.StringMap>)
    ensures r == request.params
  {
    DataRequest.GetParams(request)
  }

  /** `getHeaders`: the request's own map, `null` included. */
  function GetHeaders(request: DataRequest.DataRequest): (r: Option<DataRequest.StringMap>)
    ensures r == request.headers
  {
    DataRequest.GetHeaders(request)
  }
}

=== FILE: wrappers.dfy ===
/** Java's nullable references, as a value type.

    Every reference the source may pass as `null` is an `Option` here:
    `None` is `null`, `Some(v)` is a non-null reference to `v`.
 */
module Wrappers {

  datatype Option<+T> = None | Some(value: T) {

    /** The value, or `default` for `null`. */
    function GetOr(default: T): T {
      match this
      case Some(v) => v
      case None => default
    }
  }

  /** `TextUtils.isEmpty`: true for `null` and for the empty string. */
  predicate IsEmptyText(s: Option<string>) {
    s.None? || |s.value| == 0
  }
}
